=== FILE: README.md ===
# Library loans and copy availability, in Dafny

This project models the core of a small Django library system (acervo, livros,
emprestimos, relatorios). The core is the loan lifecycle and how copies are
counted as available. The model is functional:

- All the tables live in one immutable `Store`: Livro, Autor, autor_livro,
  Exemplar, Leitor and Emprestimo.
- Each request that writes is a pure function. It returns the new store and
  an `Outcome` (`Done` or `Failed(error)`).
- Each listing is a function from the store to a sorted sequence of rows.
  Its contract names exactly which ids the listing holds.

Dates are day numbers and money is integer cents. "Today" is always a
parameter.

Modules:

- `Maybe`: the option type.
- `Seqs`: filtering, keyed rows and insertion sort, with the listing lemmas.
- `Text`: the PostgreSQL `ILIKE '%q%'` test the search boxes use, decimal
  text, and code-point string order.
- `Cpf`: the `clean_cpf` normalisation of the reader and staff forms.
- `Schema`: the entities and the consistency predicates.
  - `Keyed` is the database's keys and foreign keys.
  - `WellFormed` is `Keyed` plus the rule that no copy has two
    'Em Andamento' loans.
- `Loans`: the loan form choices, creating a loan, the active-loan list, the
  return screen and its fine rules, returning a loan, and deleting a loan
  record.
- `Availability`: the per-book counts. The catalog clamps them at zero; the
  book list does not.
- `Catalog`: the public catalog and a book's sorted author names.
- `Books`: creating, updating and deleting a book and its author links, and
  the staff book list.
- `Reports`: the overdue report, the borrowed-books report and a book's loan
  history.

The central invariant is `WellFormed`. Creating a loan only accepts a copy
from the available-copy choices, so every write keeps `WellFormed`. The
contracts of `Loans.CreateLoan` and `Loans.ReturnLoan` say so directly; these
lemmas show it for the other writes:

- `Loans.DeleteLoanPreservesWellFormed`
- `Books.CreateBookPreservesWellFormed`
- `Books.UpdateBookPreservesWellFormed`
- `Books.DeleteBookPreservesWellFormed`

Under `WellFormed`, the catalog's clamp never fires and both availability
figures count the copies no active loan holds. `Availability.DoubleLoanSplitsFigures`
shows the store in which the two figures differ.

Where the code and its description differ, the model follows the code,
except for the one bug logged under Findings, where it models both versions:

- **Deleting an unknown loan id succeeds and changes nothing.** The
  confirmation lookup returns `None` rather than raising.
- **A loan already returned can be returned again.** The UPDATE re-applies
  the status, date, fine and note.
- **An on-time fine is kept if submitted.** A value posted in the hidden field
  is stored; it is not forced to 0.
- **A refused book delete still removes the author links.** A book with copies
  cannot be deleted, but its autor_livro rows are already gone by then.
- **The loan form is checked before the session.** An invalid form gives
  `InvalidForm` even when no staff member is logged in.
- **Search is `ILIKE '%q%'` with the query unescaped.** So `%`, `_` and `\`
  in a query act as pattern characters. "Case-insensitive substring" only holds
  for queries without them; see `Text.ContainsIsSubstring` and
  `Text.UnderscoreMatchesAnyLetter`.

## Model

| member | source | states |
|---|---|---|
| Cpf.CleanCpfMembers | leitores/forms.py:37-40 | the cleaned CPF has no '.' and no '-', and holds exactly the input's other characters |
| Cpf.CleanCpfCounts | leitores/forms.py:40 | every other character keeps its number of occurrences; the length drops by the number of '.' and '-' |
| Cpf.CleanCpfKeepsOthersInOrder | funcionarios/forms.py:38-41 | the cleaned CPF is the input's non-mask characters in their original order |
| Cpf.CleanCpfIdempotent | leitores/forms.py:40 | cleaning twice is cleaning once |
| Cpf.NoMaskUnchanged | funcionarios/forms.py:41 | an input without '.' or '-' is returned unchanged |
| Cpf.CleanConcat | leitores/forms.py:40 | cleaning distributes over concatenation |
| Cpf.CleanMaskedCpf | leitores/forms.py:13 | a masked `a.b.c-d` cleans to `abcd` when the parts carry no mask characters |
| Cpf.CleanCpfPlaceholder | funcionarios/forms.py:18 | the placeholder `000.000.000-00` cleans to `00000000000` |
| Cpf.RemoveCount | leitores/forms.py:40 | one `replace(c, "")` drops every `c` and keeps the count of each other character |
| Cpf.RemoveLength | funcionarios/forms.py:41 | one `replace(c, "")` shortens the text by the number of `c` |
| Text.ContainsIsSubstring | emprestimos/views.py:110-111 | for a query without `%`, `_` or `\`, `t ILIKE '%q%'` holds exactly when the lower-cased query occurs in the lower-cased text |
| Text.UnderscoreMatchesAnyLetter | acervo/views.py:46-53 | the unescaped query `_` matches "Dune" although "_" does not occur in it |
| Text.Digits | emprestimos/views.py:110 | the decimal text of an asset number is non-empty and all digits |
| Text.DigitsRoundTrip | emprestimos/views.py:110 | the decimal text reads back as the number, and begins with '0' only for 0 |
| Text.IntTextRoundTrip | emprestimos/views.py:110 | `asset::text`, with its sign, reads back as the asset number |
| Text.IntTextInjective | emprestimos/views.py:110 | distinct asset numbers have distinct texts |
| Loans.ReaderChoices | emprestimos/forms.py:6-12 | the placeholder first, then one option per reader, each option's value the reader's id and its text the reader's name; every reader has its option and every option is a reader's, in name order |
| Loans.AvailableCopies | emprestimos/forms.py:18-31 | the available-copy rows are exactly the rows built from the copies with a book and no 'Em Andamento' loan (copy id, asset number, book name), sorted by book name, one row per copy |
| Loans.CopyChoices | emprestimos/forms.py:32-34 | the placeholder first, then one option per available copy in the same order; the offered ids are exactly the available copies |
| Loans.ActiveLoanRows | emprestimos/forms.py:43-58 | the return dropdown rows are exactly the rows built from the joined 'Em Andamento' loans (loan id, reader name, book name, asset number), sorted by reader name then book name |
| Loans.ActiveLoanChoices | emprestimos/forms.py:59-64 | one option per active-loan row, in order, with no placeholder |
| Loans.ActiveLoanIdsAreActiveLoans | emprestimos/forms.py:51-55 | in a keyed store the dropdown offers every 'Em Andamento' loan |
| Loans.Join | emprestimos/views.py:26-29 | a joined loan carries the copy, book and reader rows its foreign keys name |
| Loans.JoinTotal | emprestimos/views.py:26-29 | with the foreign keys in place every loan joins |
| Loans.CreateLoan | emprestimos/views.py:40-63 | succeeds exactly for an available copy, an existing reader and a logged-in staff member (a missing session id and id 0 are both `SessionExpired`, as Python's `not` treats them); the new loan is stamped with the logged-in staff id and appended 'Em Andamento', due 14 days after today, with no return data; no existing loan changes; a refusal changes nothing; the new id is fresh in a keyed store, and a consistent store stays consistent |
| Loans.AppendLoanKeepsWellFormed | emprestimos/forms.py:76-85 | a loan appended with the next id on an available copy and an existing reader has a fresh id and keeps the store consistent |
| Loans.ListActiveLoans | emprestimos/views.py:90-125 | the loan list holds exactly the joined active loans the query hits, one row per such loan row, earliest due date first; a row is late iff due < today, and then shows today − due ≥ 1 days |
| Loans.LoanSearchIsSubstring | emprestimos/views.py:109-111 | for a plain query, an active loan is listed iff the query occurs, ignoring case, in the book name, the reader name or the asset number's text |
| Loans.EmptyQueryListsAllActive | emprestimos/views.py:103-114 | with no query the list holds every 'Em Andamento' loan |
| Loans.LatenessAgrees | emprestimos/views.py:119-125 | the list's late flag and days late agree with the return screen's |
| Loans.ReturnLateness | emprestimos/views.py:163-173 | late iff due < today; when late, days shown = today − due ≥ 1, otherwise 0 |
| Loans.SuggestedFine | emprestimos/views.py:216-220 | a fine is suggested iff the loan is late, and it is 100 cents per late day |
| Loans.ReturnExample | emprestimos/views.py:167-173 | due on day 19723 and returned on day 19733: 10 days late, R$ 10,00 suggested |
| Loans.CleanFineAsWritten | emprestimos/forms.py:90-128 | the fine field as written: required when late, at most ten digits (|fine| < 10^10 cents), and no minimum |
| Loans.LateZeroFineAccepted | emprestimos/forms.py:115-118 | the as-written field accepts a late fine of 0 and of −R$ 5,00 |
| Loans.CleanFine | emprestimos/forms.py:115-128 | late: accepted iff a fine from 1 cent up to the ten-digit bound is given, and a blank is `FineRequired`; on time: accepted iff blank or within the bound; the stored amount is the input or 0 |
| Loans.CleanFineNarrowsAsWritten | emprestimos/forms.py:115-118 | the intended rule accepts a subset with the same amounts; it refuses in addition exactly the late fines that are ≤ 0 and above −FineBound, which the code as written lets through |
| Loans.CleanFineOnTimeUnchanged | emprestimos/forms.py:123-128 | on time, the two rules agree |
| Loans.ShowReturn | emprestimos/views.py:152-173 | the return screen exists iff the loan exists and joins; it shows the stored loan row found by id, late iff that row's due date < today, with its days late and a fine suggested iff late |
| Loans.ReturnLoanUsesStoredDue | emprestimos/views.py:163-173 | in a keyed store, returning a stored loan succeeds iff the fine passes the rule for that row's due date < today, under both fine rules |
| Loans.ReturnLoan | emprestimos/views.py:152-201 | under the intended fine rule: an unknown id is `NotFound`; a refusal changes nothing; success iff the loan shows and the fine passes; on success exactly the rows with that id become 'Devolvido' today, with the fine (or 0) and the note, and nothing else changes; a consistent store stays consistent |
| Loans.Commit | emprestimos/views.py:186-200 | a refused fine changes nothing and reports its error; an accepted one closes exactly the rows with that id with that fine, and keeps the store consistent |
| Loans.ReturnLoanAsWritten | emprestimos/views.py:152-201 | the same return with the fine field as written: success iff the loan shows and the as-written field accepts the fine; then the rows with that id are closed with it |
| Loans.ReturnLoanNarrowsAsWritten | emprestimos/forms.py:115-118 | where the intended return succeeds the code does the same; the code alone succeeds exactly on a late loan with a fine ≤ 0 above −FineBound |
| Loans.LateZeroFineStored | emprestimos/views.py:186-200 | as written, a late loan returned with a zero fine is closed with a stored fine of 0, which the intended return refuses with `FineTooSmall` |
| Loans.ReturnTwice | emprestimos/views.py:191-200 | a loan already returned is returned again and its row is overwritten |
| Loans.RewriteLoansKeepsWellFormed | emprestimos/views.py:193-198 | rewriting loans in place, keeping their keys and making none newly active, keeps the store consistent |
| Loans.DeleteLoan | emprestimos/views.py:229-240 | always succeeds; removes exactly the loans with that id; an unknown id changes nothing; the other tables are untouched |
| Loans.DeleteLoanPreservesWellFormed | emprestimos/views.py:240 | deleting a loan keeps the store consistent |
| Loans.DeleteFreesCopy | emprestimos/views.py:239-240 | after the delete, a copy with no other active loan is available again |
| Loans.DeleteActiveLoanFreesItsCopy | emprestimos/views.py:239-240 | in a consistent store, deleting a copy's active loan makes the copy available |
| Availability.ClampedAvailable | acervo/views.py:64-89 | the catalog figure is never negative, never above the copy count, and is the plain difference whenever that is not negative |
| Availability.TotalCopiesCountsIds | acervo/views.py:65-66 | with unique copy ids, the copy count is the number of the book's copy ids |
| Availability.LoanedCountsHeldCopies | acervo/views.py:71-80 | with at most one active loan per copy, the loan count is the number of the book's copies held by an active loan |
| Availability.AvailableCountsFreeCopies | acervo/views.py:83-89 | in a consistent store both figures equal the number of the book's copies no active loan holds |
| Availability.ClampNeverFires | livros/views.py:96-97 | in a consistent store the clamped and unclamped figures coincide and loans never exceed copies |
| Availability.DoubleLoanSplitsFigures | livros/views.py:77-97 | one copy with two active loans shows −1 in the book list and 0 in the catalog |
| Catalog.AuthorsOf | acervo/views.py:11-25 | a book's authors are exactly the existing authors autor_livro links to it, in name order, without repeats in a keyed store |
| Catalog.AuthorNames | relatorios/views.py:15-28 | the names shown are exactly the linked authors' names, sorted |
| Catalog.CatalogListing | acervo/views.py:29-94 | the catalog rows are exactly the rows built from the books the query hits, in title order, each with its copy count, its loan count, availability between 0 and the copy count, and its sorted author names |
| Catalog.CatalogShowsFreeCopies | acervo/views.py:83-89 | in a consistent store each line's availability is copies − loans, and is the number of free copies |
| Catalog.CatalogSearchIsSubstring | acervo/views.py:43-53 | for a plain query, a book is listed iff the query occurs, ignoring case, in its title, its genre or a linked author's name |
| Books.CreateBook | livros/views.py:15-42 | succeeds exactly for a valid form; appends the book under the next id and one link per ticked author; existing books and links are unchanged |
| Books.CreateBookAuthors | livros/views.py:33-42 | in a keyed store the new book's author set is exactly the ticked set |
| Books.CreateBookPreservesWellFormed | livros/views.py:23-42 | creating a book keeps the store consistent |
| Books.UpdateBook | livros/views.py:120-163 | a missing id is `NotFound` and changes nothing; on success the book's fields are rewritten, its author set equals the submitted set, and other books and their links are unchanged |
| Books.UpdateBookPreservesWellFormed | livros/views.py:146-163 | updating a book keeps the store consistent |
| Books.UpdateBookIdempotent | livros/views.py:155-163 | repeating a successful update changes nothing more |
| Books.DeleteBook | livros/views.py:181-211 | a missing id is `NotFound`; otherwise the book's links are removed; the book is removed iff it has no copies, and otherwise is refused with `HasCopies` and stays |
| Books.DeleteBookPreservesWellFormed | livros/views.py:197-201 | deleting a book, refused or not, keeps the store consistent |
| Books.ListBooks | livros/views.py:55-114 | the book list rows are exactly the rows built from the books whose title or ISBN the query hits, in title order, with copies, the unclamped copies − loans, and the linked author ids |
| Books.BookListAgreesWithCatalog | livros/views.py:96-97 | in a consistent store the book list and the catalog show the same availability and the same authors |
| Books.BookSearchIsSubstring | livros/views.py:63-66 | for a plain query, a book is listed iff the query occurs, ignoring case, in its title or ISBN |
| Reports.Overdue | relatorios/views.py:41-59 | the overdue report rows are exactly the rows built from the joined active loans due before today (reader, book, asset, due date), most days late first, each with days late = today − due ≥ 1 |
| Reports.OverdueExactlyLateActive | relatorios/views.py:54-55 | in a keyed store a loan is in the report iff it is 'Em Andamento' and past due |
| Reports.OverdueMatchesLateFlags | relatorios/views.py:54-55 | for the same day, the report's loans are exactly the loans the loan list flags late |
| Reports.Borrowed | relatorios/views.py:71-94 | the borrowed report rows are exactly the rows built from the joined active loans (reader, book, asset, dates, authors), earliest due first, late iff due < today, with the book's sorted author names |
| Reports.BorrowedExactlyActive | relatorios/views.py:85-86 | in a keyed store the borrowed report holds every 'Em Andamento' loan |
| Reports.History | relatorios/views.py:125-141 | a book's history holds exactly the loans of any status on its copies, most recent loan date first, with each loan's dates and status |
| Reports.HistoryActiveLinesAreLoaned | relatorios/views.py:126-137 | in a consistent store the history's active lines number exactly the book's loaned count |
| Reports.ActiveLoansCountIds | acervo/views.py:71-80 | with unique loan ids, the loaned count is the number of distinct active loans on the book's copies |
| Reports.ShowHistory | relatorios/views.py:113-141 | the select box lists the books, a permutation of the table, in title order; with no selection there is no history; with one, the chosen book is found iff it exists and the rows are its history |

## Left out

- The session, login, messages, templates, redirects and URL routing are not modelled. The logged-in staff id is an `Option<Id>` parameter of `CreateLoan`.
- Staff (Funcionario) rows are not part of the store, so the loan's staff foreign key is not checked.
- `date.today()` and `CURRENT_DATE` are not modelled. Today is a `Day` parameter and dates are day numbers without a calendar.
- Decimal amounts are integer cents. The suggested fine's `:.2f` formatting is not modelled.
- Database errors caught by `except Exception` are not modelled; every statement is assumed to succeed. The one exception modelled is the foreign-key refusal of a book delete. With it goes the partial effect of a multi-statement write that fails halfway.
- The concurrent race between listing the available copies and inserting a loan is not modelled, because the model is sequential.
- The return screen reached without a loan id (the bare dropdown) is not modelled, nor is a non-numeric id, because they do not change the store. Every operation takes an `Id`.
- `BRCPFField`'s checksum and length checks are not modelled, because the field is a foreign library. Only `clean_cpf`'s own stripping is modelled.
- CharField whitespace stripping, `max_length`, the e-mail format and other field-level validation are not modelled. `Books.FormValid` keeps the required, minimum, choice and author checks.
- The CRUD views of exemplares, autores, leitores and funcionarios are not modelled, nor the dashboard. Their delete guards depend on database constraints outside this model.
- Text.Lower: folds only ASCII and Latin-1 capital letters, not the database's full Unicode lower-casing.
- Text.StrLe: orders by code point, not by the database collation. Listings state sortedness and membership only, not the order among ties.
- Books.BookForm: the ticked authors are a set, so a submission that repeats an author id is not modelled.
- Books.ListBooks: the author names are shown as the set of linked author ids, because the SQL gives them no order.
- Reports.Overdue: each row also carries its loan id, which the SQL does not select; it is the key the contract speaks of. The same holds for `Reports.History`.
- Reports.Overdue: CURRENT_DATE is identified with date.today(), both being the `today` parameter; `Reports.OverdueMatchesLateFlags` holds for the same day only, and a database clock that differs from the server's is not modelled.
- Reports.History: the exact set of its loans is stated only for a keyed store, because with broken foreign keys the reader join also filters rows.
- Loans.ListActiveLoans: unique rows are stated only for a keyed store, because duplicate ids in the table would be listed twice. The same holds for the other listings.

## Findings

| source | as written | input that shows it | evidently intended | confidence | as-written member | corrected member |
|---|---|---|---|---|---|---|
| emprestimos/forms.py:115-118 | for a late return `min_value = 0.01` is assigned to the `multa` field after the field was built; the field's minimum-value validator is only attached when it is constructed, so no minimum is enforced | a late loan returned with `multa` = 0.00 or −5.00 passes the form and the fine is stored | a late return needs a fine of at least R$ 0,01 | not executed; rests on the form library attaching value validators only at field construction | Loans.CleanFineAsWritten, Loans.LateZeroFineAccepted, Loans.ReturnLoanAsWritten, Loans.LateZeroFineStored | Loans.CleanFine, Loans.ReturnLoan |

=== FILE: availability.dfy ===
/**
 * Per-book availability as the catalog (acervo) and the book list (livros)
 * compute it: the number of copies of the book minus the number of
 * 'Em Andamento' loans on those copies. The catalog clamps the difference at
 * zero; the book list shows it as it is.
 */
module Availability {
  import opened Maybe
  import opened Seqs
  import opened Schema

  /** `SELECT ... FROM Exemplar WHERE id_livro = b`. */
  function CopiesOf(st: Store, b: Id): seq<Copy>
  {
    Filter(st.copies, (c: Copy) => c.bookId == b)
  }

  /** `SELECT id_exemplar FROM Exemplar WHERE id_livro = b`. */
  function CopyIdsOf(st: Store, b: Id): set<Id>
  {
    set c | c in st.copies && c.bookId == b :: c.id
  }

  /** 'Em Andamento' loans whose copy id is one of the book's copy ids. */
  function ActiveLoansOf(st: Store, b: Id): seq<Loan>
  {
    Filter(st.loans, (l: Loan) => IsActive(l) && l.copyId in CopyIdsOf(st, b))
  }

  /** `SELECT COUNT(*) FROM Exemplar WHERE id_livro = b`. */
  function TotalCopies(st: Store, b: Id): nat
  {
    |CopiesOf(st, b)|
  }

  /** The count of active loans on the book's copies. */
  function LoanedCount(st: Store, b: Id): nat
  {
    |ActiveLoansOf(st, b)|
  }

  /** The book list's availability: the plain difference, possibly negative. */
  function UnclampedAvailable(st: Store, b: Id): int
  {
    TotalCopies(st, b) - LoanedCount(st, b)
  }

  /** The catalog's availability: the difference, forced to 0 when negative. */
  function ClampedAvailable(st: Store, b: Id): (r: int)
    ensures 0 <= r <= TotalCopies(st, b)
    ensures UnclampedAvailable(st, b) >= 0 ==> r == UnclampedAvailable(st, b)
    ensures UnclampedAvailable(st, b) < 0 ==> r == 0
  {
    var d := TotalCopies(st, b) - LoanedCount(st, b);
    if d < 0 then 0 else d
  }

  /** The ids of the book's copies that no active loan references. */
  function FreeCopyIds(st: Store, b: Id): set<Id>
  {
    set c | c in st.copies && c.bookId == b && c.id !in ActiveCopyIds(st) :: c.id
  }

  function LoanCopy(l: Loan): Id { l.copyId }

  /** With unique copy ids, the count of copies is the count of their ids. */
  lemma TotalCopiesCountsIds(st: Store, b: Id)
    requires UniqueKeys(st.copies, CopyKey)
    ensures TotalCopies(st, b) == |CopyIdsOf(st, b)|
  {
    var p := (c: Copy) => c.bookId == b;
    FilterSamePredicate(st.copies, p, (c: Copy) => c.bookId == b);
    var cs := Filter(st.copies, p);
    assert cs == CopiesOf(st, b);
    forall i, j | 0 <= i < j < |st.copies| && p(st.copies[i]) && p(st.copies[j])
      ensures CopyKey(st.copies[i]) != CopyKey(st.copies[j])
    {
    }
    FilterKeyCard(st.copies, p, CopyKey);
    assert KeySet(cs, CopyKey) == CopyIdsOf(st, b);
  }

  /**
   * With at most one active loan per copy, the count of active loans on the
   * book is the count of the book's copies that some active loan holds.
   */
  lemma LoanedCountsHeldCopies(st: Store, b: Id)
    requires AtMostOneActivePerCopy(st.loans)
    ensures LoanedCount(st, b) == |CopyIdsOf(st, b) * ActiveCopyIds(st)|
  {
    var q := (l: Loan) => IsActive(l) && l.copyId in CopyIdsOf(st, b);
    FilterSamePredicate(st.loans, q, (l: Loan) => IsActive(l) && l.copyId in CopyIdsOf(st, b));
    var ls := Filter(st.loans, q);
    assert ls == ActiveLoansOf(st, b);
    forall i, j | 0 <= i < j < |st.loans| && q(st.loans[i]) && q(st.loans[j])
      ensures LoanCopy(st.loans[i]) != LoanCopy(st.loans[j])
    {
    }
    FilterKeyCard(st.loans, q, LoanCopy);
    forall k | k in CopyIdsOf(st, b) * ActiveCopyIds(st)
      ensures k in KeySet(ls, LoanCopy)
    {
      var l :| l in st.loans && IsActive(l) && l.copyId == k;
      assert l in ls;
    }
    assert KeySet(ls, LoanCopy) == CopyIdsOf(st, b) * ActiveCopyIds(st);
  }

  /** A set splits into the part inside another set and the part outside it. */
  lemma SplitCard(a: set<Id>, b: set<Id>)
    ensures |a| == |a * b| + |a - b|
  {
    assert a == (a * b) + (a - b);
    assert (a * b) * (a - b) == {};
  }

  /**
   * In a consistent store both availability figures count the same thing:
   * the copies of the book that no active loan holds.
   */
  lemma AvailableCountsFreeCopies(st: Store, b: Id)
    requires WellFormed(st)
    ensures UnclampedAvailable(st, b) == |FreeCopyIds(st, b)|
    ensures ClampedAvailable(st, b) == |FreeCopyIds(st, b)|
  {
    TotalCopiesCountsIds(st, b);
    LoanedCountsHeldCopies(st, b);
    SplitCard(CopyIdsOf(st, b), ActiveCopyIds(st));
    assert FreeCopyIds(st, b) == CopyIdsOf(st, b) - ActiveCopyIds(st);
  }

  /** In a consistent store the catalog and the book list show the same figure. */
  lemma ClampNeverFires(st: Store, b: Id)
    requires WellFormed(st)
    ensures ClampedAvailable(st, b) == UnclampedAvailable(st, b)
    ensures LoanedCount(st, b) <= TotalCopies(st, b)
  {
    AvailableCountsFreeCopies(st, b);
  }

  /**
   * Without the one-active-loan rule the two figures part: one copy held by
   * two active loans shows -1 in the book list and 0 in the catalog.
   */
  lemma DoubleLoanSplitsFigures(st: Store, c: Copy, l1: Loan, l2: Loan)
    requires st.copies == [c] && st.loans == [l1, l2]
    requires IsActive(l1) && IsActive(l2) && l1.copyId == c.id && l2.copyId == c.id
    ensures !AtMostOneActivePerCopy(st.loans)
    ensures UnclampedAvailable(st, c.bookId) == -1
    ensures ClampedAvailable(st, c.bookId) == 0
  {
    var b := c.bookId;
    assert CopyIdsOf(st, b) == {c.id};
    assert st.copies[1..] == [];
    assert CopiesOf(st, b) == [c];
    var q := (l: Loan) => IsActive(l) && l.copyId in CopyIdsOf(st, b);
    FilterSamePredicate(st.loans, q, (l: Loan) => IsActive(l) && l.copyId in CopyIdsOf(st, b));
    assert st.loans[1..] == [l2] && st.loans[1..][1..] == [];
    assert Filter([l2], q) == [l2];
    assert Filter(st.loans, q) == [l1, l2];
  }
}

=== FILE: books.dfy ===
/**
 * Book maintenance (livros): creating a book with its authors, updating a book
 * and replacing its author set wholesale, deleting a book after clearing its
 * author associations, and the staff book list with its unclamped availability.
 */
module Books {
  import opened Maybe
  import opened Seqs
  import opened Text
  import opened Schema
  import opened Availability
  import opened Catalog

  /** The status select box of the book form. */
  const StatusChoices: set<string> := {"Disponível", "Emprestado", "Manutenção", "Descartado"}

  /** The cleaned fields of the book form; `authors` are the ticked author ids. */
  datatype BookForm = BookForm(
    name: string,
    isbn: string,
    genre: string,
    nominalCopies: int,
    status: string,
    authors: set<Id>)

  /**
   * The form's own checks: the three text fields are required, the copy count
   * is at least 0, the status is one of the choices, and at least one author is
   * ticked, each among the existing authors.
   */
  predicate FormValid(st: Store, f: BookForm)
  {
    && f.name != "" && f.isbn != "" && f.genre != ""
    && f.nominalCopies >= 0
    && f.status in StatusChoices
    && f.authors != {}
    && f.authors <= AuthorIds(st)
  }

  function BookFromForm(id: Id, f: BookForm): Book
  {
    Book(id, f.name, f.genre, f.isbn, f.nominalCopies, f.status)
  }

  /** The autor_livro rows that tie book `b` to each author of `authors`. */
  function Links(b: Id, authors: set<Id>): set<(Id, Id)>
  {
    set a | a in authors :: (b, a)
  }

  // ----- Creating a book ----------------------------------------------------

  /** Inserts the book under the next id, then one autor_livro row per ticked author. */
  function CreateBook(st: Store, f: BookForm): (r: Step)
    ensures r.outcome == Done <==> FormValid(st, f)
    ensures r.outcome != Done ==> r == Step(st, Failed(InvalidForm))
    ensures r.outcome == Done ==> (
              && |r.store.books| == |st.books| + 1
              && r.store.books[..|st.books|] == st.books
              && r.store.books[|st.books|] == BookFromForm(st.nextBookId, f)
              && r.store.nextBookId == st.nextBookId + 1
              && (forall p :: p in r.store.bookAuthors <==>
                    p in st.bookAuthors || (p.0 == st.nextBookId && p.1 in f.authors))
              && r.store.(books := st.books, bookAuthors := st.bookAuthors, nextBookId := st.nextBookId) == st)
  {
    if !FormValid(st, f) then Step(st, Failed(InvalidForm))
    else
      var bk := BookFromForm(st.nextBookId, f);
      assert (st.books + [bk])[..|st.books|] == st.books;
      Step(st.(books := st.books + [bk],
               bookAuthors := st.bookAuthors + Links(st.nextBookId, f.authors),
               nextBookId := st.nextBookId + 1), Done)
  }

  /** In a consistent store the new book's authors are exactly the ticked ones. */
  lemma CreateBookAuthors(st: Store, f: BookForm)
    requires Keyed(st)
    requires CreateBook(st, f).outcome == Done
    ensures AssociatedAuthorIds(CreateBook(st, f).store, st.nextBookId) == f.authors
  {
    var s2 := CreateBook(st, f).store;
    assert st.nextBookId !in BookIds(st);
    forall a | a in AssociatedAuthorIds(s2, st.nextBookId)
      ensures a in f.authors
    {
      var p :| p in s2.bookAuthors && p.0 == st.nextBookId && p.1 == a;
      assert p !in st.bookAuthors;
    }
    forall a | a in f.authors
      ensures a in AssociatedAuthorIds(s2, st.nextBookId)
    {
      assert (st.nextBookId, a) in s2.bookAuthors;
    }
  }

  /** Creating a book keeps the store consistent. */
  lemma CreateBookPreservesWellFormed(st: Store, f: BookForm)
    requires WellFormed(st)
    ensures WellFormed(CreateBook(st, f).store)
  {
    var r := CreateBook(st, f);
    if r.outcome == Done {
      var s2 := r.store;
      var bk := s2.books[|st.books|];
      assert s2.books == st.books + [bk];
      forall i | 0 <= i < |st.books|
        ensures st.books[i].id != bk.id
      {
        assert st.books[i] in st.books;
      }
      assert UniqueKeys(s2.books, BookKey);
      assert BookIds(st) <= BookIds(s2);
      forall x | x in s2.books ensures x.id < s2.nextBookId {
        if x != bk { assert x in st.books; }
      }
      forall p | p in s2.bookAuthors
        ensures p.0 in BookIds(s2) && p.1 in AuthorIds(s2)
      {
        if p !in st.bookAuthors {
          assert bk in s2.books;
        }
      }
    }
  }

  // ----- Updating a book ----------------------------------------------------

  function Rewrite(bk: Book, b: Id, f: BookForm): Book
  {
    if bk.id == b then BookFromForm(b, f) else bk
  }

  /**
   * Looks the book up first (a missing id changes nothing), then, for a valid
   * form, rewrites the book's fields, deletes all its autor_livro rows and
   * inserts one per ticked author.
   */
  function UpdateBook(st: Store, b: Id, f: BookForm): (r: Step)
    ensures FindBook(st, b).None? ==> r == Step(st, Failed(NotFound))
    ensures FindBook(st, b).Some? && !FormValid(st, f) ==> r == Step(st, Failed(InvalidForm))
    ensures r.outcome == Done <==> FindBook(st, b).Some? && FormValid(st, f)
    ensures r.outcome == Done ==> (
              && AssociatedAuthorIds(r.store, b) == f.authors
              && (forall p: (Id, Id) :: p.0 != b ==> (p in r.store.bookAuthors <==> p in st.bookAuthors))
              && |r.store.books| == |st.books|
              && (forall i :: 0 <= i < |st.books| && st.books[i].id != b ==> r.store.books[i] == st.books[i])
              && (forall i :: 0 <= i < |st.books| && st.books[i].id == b ==>
                    r.store.books[i] == BookFromForm(b, f))
              && r.store.(books := st.books, bookAuthors := st.bookAuthors) == st)
  {
    if FindBook(st, b).None? then Step(st, Failed(NotFound))
    else if !FormValid(st, f) then Step(st, Failed(InvalidForm))
    else
      var books := seq(|st.books|, i requires 0 <= i < |st.books| => Rewrite(st.books[i], b, f));
      var links := (set p | p in st.bookAuthors && p.0 != b) + Links(b, f.authors);
      var s2 := st.(books := books, bookAuthors := links);
      assert forall a :: a in f.authors ==> (b, a) in links;
      Step(s2, Done)
  }

  /** Updating a book keeps the store consistent: its id stays and its authors exist. */
  lemma UpdateBookPreservesWellFormed(st: Store, b: Id, f: BookForm)
    requires WellFormed(st)
    ensures WellFormed(UpdateBook(st, b, f).store)
  {
    var r := UpdateBook(st, b, f);
    if r.outcome == Done {
      var s2 := r.store;
      SameBookIds(st, s2.books);
      assert BookIds(s2) == BookIds(st);
      forall p | p in s2.bookAuthors
        ensures p.0 in BookIds(s2) && p.1 in AuthorIds(s2)
      {
        if p.0 == b {
          assert p.1 in AssociatedAuthorIds(s2, b);
          var bk := FindBook(st, b).value;
        }
      }
    }
  }

  /** Rewriting books in place with the same ids keeps the ids, their uniqueness and their bound. */
  lemma SameBookIds(st: Store, books: seq<Book>)
    requires |books| == |st.books|
    requires forall i :: 0 <= i < |books| ==> books[i].id == st.books[i].id
    ensures BookIds(st.(books := books)) == BookIds(st)
    ensures UniqueKeys(st.books, BookKey) ==> UniqueKeys(books, BookKey)
    ensures (forall x :: x in st.books ==> x.id < st.nextBookId) ==> forall x :: x in books ==> x.id < st.nextBookId
  {
    forall k | k in BookIds(st) ensures k in BookIds(st.(books := books)) {
      var i :| 0 <= i < |st.books| && st.books[i].id == k;
      assert books[i] in books;
    }
    forall x | x in books ensures x.id in BookIds(st) {
      var i :| 0 <= i < |books| && books[i] == x;
      assert st.books[i] in st.books;
    }
  }

  /** Replacing the author set wholesale makes a repeated update change nothing more. */
  lemma UpdateBookIdempotent(st: Store, b: Id, f: BookForm)
    requires UpdateBook(st, b, f).outcome == Done
    ensures UpdateBook(UpdateBook(st, b, f).store, b, f) == UpdateBook(st, b, f)
  {
    var s1 := UpdateBook(st, b, f).store;
    var bk := FindBook(st, b).value;
    var i :| 0 <= i < |st.books| && st.books[i] == bk;
    assert s1.books[i] in s1.books;
    assert AuthorIds(s1) == AuthorIds(st);
    var s2 := UpdateBook(s1, b, f).store;
    forall j | 0 <= j < |s1.books| ensures s2.books[j] == s1.books[j] {
      if st.books[j].id == b {
        assert s1.books[j] == BookFromForm(b, f);
      }
    }
    assert s2.books == s1.books;
    forall p ensures p in s2.bookAuthors <==> p in s1.bookAuthors {
      if p.0 == b {
        assert p in s2.bookAuthors <==> p.1 in AssociatedAuthorIds(s2, b);
        assert p in s1.bookAuthors <==> p.1 in AssociatedAuthorIds(s1, b);
      }
    }
    assert s2.bookAuthors == s1.bookAuthors;
  }

  // ----- Deleting a book ----------------------------------------------------

  predicate OtherBook(b: Id, bk: Book)
  {
    bk.id != b
  }

  /**
   * Looks the book up (a missing id changes nothing), deletes its autor_livro
   * rows, then deletes the book. The database refuses the second delete while
   * copies of the book exist; the association delete has already taken effect.
   */
  function DeleteBook(st: Store, b: Id): (r: Step)
    ensures FindBook(st, b).None? ==> r == Step(st, Failed(NotFound))
    ensures r.outcome == Failed(HasCopies) <==> FindBook(st, b).Some? && CopyIdsOf(st, b) != {}
    ensures r.outcome == Done <==> FindBook(st, b).Some? && CopyIdsOf(st, b) == {}
    ensures FindBook(st, b).Some? ==> (
              && AssociatedAuthorIds(r.store, b) == {}
              && (forall p: (Id, Id) :: p.0 != b ==> (p in r.store.bookAuthors <==> p in st.bookAuthors))
              && r.store.(books := st.books, bookAuthors := st.bookAuthors) == st)
    ensures r.outcome == Failed(HasCopies) ==> r.store.books == st.books
    ensures r.outcome == Done ==> forall bk :: bk in r.store.books <==> bk in st.books && bk.id != b
  {
    if FindBook(st, b).None? then Step(st, Failed(NotFound))
    else
      var cleared := st.(bookAuthors := set p | p in st.bookAuthors && p.0 != b);
      if CopyIdsOf(st, b) != {} then Step(cleared, Failed(HasCopies))
      else Step(cleared.(books := Filter(st.books, (bk: Book) => OtherBook(b, bk))), Done)
  }

  predicate DistinctBookIds(a: Book, c: Book)
  {
    a.id != c.id
  }

  /** Deleting a book, refused or not, keeps the store consistent. */
  lemma DeleteBookPreservesWellFormed(st: Store, b: Id)
    requires WellFormed(st)
    ensures WellFormed(DeleteBook(st, b).store)
  {
    var r := DeleteBook(st, b);
    var s2 := r.store;
    if r.outcome == Done {
      var p := (bk: Book) => OtherBook(b, bk);
      FilterSamePredicate(st.books, p, (bk: Book) => OtherBook(b, bk));
      assert s2.books == Filter(st.books, p);
      FilterKeepsPairwise(st.books, p, DistinctBookIds);
      assert UniqueKeys(s2.books, BookKey);
      forall c | c in s2.copies ensures c.bookId in BookIds(s2) {
        var bk :| bk in st.books && bk.id == c.bookId;
        assert c.id !in CopyIdsOf(st, b);
        assert bk in s2.books;
      }
      forall q | q in s2.bookAuthors ensures q.0 in BookIds(s2) {
        var bk :| bk in st.books && bk.id == q.0;
        assert bk in s2.books;
      }
    }
  }

  // ----- The staff book list ------------------------------------------------

  /** One line of the book list: counts without a clamp, and the author ids unordered. */
  datatype BookRow = BookRow(
    bookId: Id,
    name: string,
    isbn: string,
    genre: string,
    status: string,
    total: int,
    available: int,
    authors: set<Id>)

  function BookRowKey(r: BookRow): Id { r.bookId }
  function BookRowName(r: BookRow): string { r.name }

  predicate BookRowByName(a: BookRow, c: BookRow)
  {
    StrLe(a.name, c.name)
  }

  /** `nome ILIKE '%q%' OR isbn ILIKE '%q%'`. */
  predicate BookHit(bk: Book, query: string)
  {
    Contains(bk.name, query) || Contains(bk.isbn, query)
  }

  function ListedBookIds(st: Store, query: string): set<Id>
  {
    set bk | bk in st.books && (query == "" || BookHit(bk, query)) :: bk.id
  }

  /** The existing authors autor_livro ties to the book, in no particular order. */
  function ListedAuthorIds(st: Store, b: Id): set<Id>
  {
    set a | a in st.authors && (b, a.id) in st.bookAuthors :: a.id
  }

  function BookRowOf(st: Store, query: string, bk: Book): Option<BookRow>
  {
    if query != "" && !BookHit(bk, query) then None
    else
      Some(BookRow(bk.id, bk.name, bk.isbn, bk.genre, bk.status, TotalCopies(st, bk.id),
                   UnclampedAvailable(st, bk.id), ListedAuthorIds(st, bk.id)))
  }

  lemma BookRowKeys(st: Store, query: string, f: Book -> Option<BookRow>)
    requires forall bk :: f(bk) == BookRowOf(st, query, bk)
    ensures forall k ::
              (exists bk :: bk in st.books && f(bk).Some? && BookRowKey(f(bk).value) == k)
              <==> k in ListedBookIds(st, query)
  {
    forall k | k in ListedBookIds(st, query)
      ensures exists bk :: bk in st.books && f(bk).Some? && BookRowKey(f(bk).value) == k
    {
      var bk :| bk in st.books && (query == "" || BookHit(bk, query)) && bk.id == k;
      assert f(bk).Some?;
    }
  }

  /** A book-list line's counts and author ids are the book's. */
  predicate BookCounts(st: Store, row: BookRow)
  {
    && row.total == TotalCopies(st, row.bookId)
    && row.available == row.total - LoanedCount(st, row.bookId)
    && row.authors == ListedAuthorIds(st, row.bookId)
  }

  /**
   * The book list: the matching books in title order, each with its copy count,
   * the copy count minus its active loans (not clamped), and its author ids.
   */
  function ListBooks(st: Store, query: string): (r: seq<BookRow>)
    ensures SortedBy(r, BookRowByName)
    ensures KeySet(r, BookRowKey) == ListedBookIds(st, query)
    ensures Keyed(st) ==> UniqueKeys(r, BookRowKey)
    ensures forall row :: row in r ==> BookCounts(st, row)
    ensures forall row :: row in r <==> exists bk :: bk in st.books && BookRowOf(st, query, bk) == Some(row)
  {
    StrKeyPreorder(BookRowByName, BookRowName);
    var f := (bk: Book) => BookRowOf(st, query, bk);
    ListingAll(st.books, f, BookRowByName, (row: BookRow) => BookCounts(st, row));
    ListingKeys(st.books, f, BookRowByName, BookRowKey);
    BookRowKeys(st, query, f);
    var r := SortBy(FilterMap(st.books, f), BookRowByName);
    ListingMembers(st.books, f, BookRowByName);
    assert Keyed(st) ==> UniqueKeys(r, BookRowKey) by {
      if Keyed(st) {
        ListingUniqueKeys(st.books, f, BookKey, BookRowKey, BookRowByName);
      }
    }
    r
  }

  /**
   * In a consistent store the book list and the catalog show the same
   * availability for a book, and the book list's author ids are the catalog's
   * authors.
   */
  lemma BookListAgreesWithCatalog(st: Store, q1: string, q2: string)
    requires WellFormed(st)
    ensures forall row, line :: row in ListBooks(st, q1) && line in CatalogListing(st, q2) && row.bookId == line.bookId ==>
              row.available == line.available && row.authors == KeySet(AuthorsOf(st, row.bookId), AuthorKey)
  {
    var rows := ListBooks(st, q1);
    var lines := CatalogListing(st, q2);
    forall row, line | row in rows && line in lines && row.bookId == line.bookId
      ensures row.available == line.available && row.authors == KeySet(AuthorsOf(st, row.bookId), AuthorKey)
    {
      BookRowAgrees(st, row);
    }
  }

  /** A book-list line of a consistent store shows the catalog's figure and the catalog's authors. */
  lemma BookRowAgrees(st: Store, row: BookRow)
    requires WellFormed(st) && BookCounts(st, row)
    ensures row.available == ClampedAvailable(st, row.bookId)
    ensures row.authors == KeySet(AuthorsOf(st, row.bookId), AuthorKey)
  {
    ClampNeverFires(st, row.bookId);
    var b := row.bookId;
    forall k | k in AssociatedAuthorIds(st, b) ensures k in ListedAuthorIds(st, b) {
      assert (b, k) in st.bookAuthors;
      var a :| a in st.authors && a.id == k;
    }
  }

  /**
   * For a query free of LIKE metacharacters, a book is listed exactly when the
   * query occurs, ignoring case, in its title or its ISBN.
   */
  lemma BookSearchIsSubstring(st: Store, query: string, bk: Book)
    requires Keyed(st) && bk in st.books
    requires query != "" && NoMeta(query)
    ensures bk.id in KeySet(ListBooks(st, query), BookRowKey) <==>
              IsSubstring(Lower(query), Lower(bk.name)) || IsSubstring(Lower(query), Lower(bk.isbn))
  {
    ContainsIsSubstring(bk.name, query);
    ContainsIsSubstring(bk.isbn, query);
    if bk.id in ListedBookIds(st, query) {
      var other :| other in st.books && (query == "" || BookHit(other, query)) && other.id == bk.id;
      FindUnique(st.books, BookKey, other);
      FindUnique(st.books, BookKey, bk);
    }
  }
}

=== FILE: catalog.dfy ===
/**
 * The public catalog (acervo): every book with its copy count, its active
 * loan count and its availability clamped at zero, the names of its authors in
 * name order, and a search on title, genre and author name.
 */
module Catalog {
  import opened Maybe
  import opened Seqs
  import opened Text
  import opened Schema
  import opened Availability

  // ----- A book's authors ---------------------------------------------------

  predicate AuthorByName(a: Author, c: Author)
  {
    StrLe(a.name, c.name)
  }

  function AuthorName(a: Author): string { a.name }

  /** The ids autor_livro associates with book `b`. */
  function AssociatedAuthorIds(st: Store, b: Id): set<Id>
  {
    set p | p in st.bookAuthors && p.0 == b :: p.1
  }

  function AuthorOf(st: Store, b: Id, a: Author): Option<Author>
  {
    if (b, a.id) in st.bookAuthors then Some(a) else None
  }

  lemma AuthorOfKeys(st: Store, b: Id, f: Author -> Option<Author>)
    requires Keyed(st)
    requires forall a :: f(a) == AuthorOf(st, b, a)
    ensures forall k ::
              (exists a :: a in st.authors && f(a).Some? && AuthorKey(f(a).value) == k)
              <==> k in AssociatedAuthorIds(st, b)
  {
    forall k | k in AssociatedAuthorIds(st, b)
      ensures exists a :: a in st.authors && f(a).Some? && AuthorKey(f(a).value) == k
    {
      assert (b, k) in st.bookAuthors;
      var a :| a in st.authors && AuthorKey(a) == k;
      assert f(a).Some?;
    }
  }

  /**
   * `SELECT nome FROM Autor WHERE id_autor IN (SELECT id_autor FROM autor_livro
   * WHERE id_livro = b) ORDER BY nome`: the book's authors, in name order.
   */
  function AuthorsOf(st: Store, b: Id): (r: seq<Author>)
    ensures SortedBy(r, AuthorByName)
    ensures forall a :: a in r <==> a in st.authors && (b, a.id) in st.bookAuthors
    ensures Keyed(st) ==> KeySet(r, AuthorKey) == AssociatedAuthorIds(st, b)
    ensures Keyed(st) ==> UniqueKeys(r, AuthorKey)
  {
    StrKeyPreorder(AuthorByName, AuthorName);
    var f := (a: Author) => AuthorOf(st, b, a);
    var r := SortBy(FilterMap(st.authors, f), AuthorByName);
    ListingMembers(st.authors, f, AuthorByName);
    assert Keyed(st) ==> KeySet(r, AuthorKey) == AssociatedAuthorIds(st, b) && UniqueKeys(r, AuthorKey) by {
      if Keyed(st) {
        ListingKeys(st.authors, f, AuthorByName, AuthorKey);
        AuthorOfKeys(st, b, f);
        ListingUniqueKeys(st.authors, f, AuthorKey, AuthorKey, AuthorByName);
      }
    }
    r
  }

  /** The `nome` column of the author rows, in the same order. */
  function Names(s: seq<Author>): (r: seq<string>)
    ensures |r| == |s|
    ensures forall i :: 0 <= i < |s| ==> r[i] == s[i].name
    ensures forall n :: n in r <==> exists a :: a in s && a.name == n
  {
    var r := seq(|s|, i requires 0 <= i < |s| => s[i].name);
    forall n | exists a :: a in s && a.name == n
      ensures n in r
    {
      var a :| a in s && a.name == n;
      var i :| 0 <= i < |s| && s[i] == a;
      assert r[i] == n;
    }
    r
  }

  /** The author names shown for a book: exactly its associated authors' names, sorted. */
  function AuthorNames(st: Store, b: Id): (r: seq<string>)
    ensures forall i, j :: 0 <= i < j < |r| ==> StrLe(r[i], r[j])
    ensures forall n :: n in r <==> exists a :: a in st.authors && (b, a.id) in st.bookAuthors && a.name == n
  {
    var s := AuthorsOf(st, b);
    var r := Names(s);
    assert forall i, j :: 0 <= i < j < |r| ==> AuthorByName(s[i], s[j]);
    r
  }

  // ----- The catalog listing ------------------------------------------------

  /** One catalog line: the book, its three counts and its author names. */
  datatype CatalogRow = CatalogRow(
    bookId: Id,
    name: string,
    genre: string,
    isbn: string,
    total: int,
    loaned: int,
    available: int,
    authors: seq<string>)

  function CatalogRowKey(r: CatalogRow): Id { r.bookId }
  function CatalogRowName(r: CatalogRow): string { r.name }

  predicate CatalogByName(a: CatalogRow, b: CatalogRow)
  {
    StrLe(a.name, b.name)
  }

  /** `nome ILIKE '%q%' OR genero ILIKE '%q%' OR` an associated author's `nome ILIKE '%q%'`. */
  predicate CatalogHit(st: Store, bk: Book, query: string)
  {
    || Contains(bk.name, query)
    || Contains(bk.genre, query)
    || exists a :: a in st.authors && (bk.id, a.id) in st.bookAuthors && Contains(a.name, query)
  }

  /** The books the catalog shows: all of them, or those the non-empty query hits. */
  function CatalogBookIds(st: Store, query: string): set<Id>
  {
    set bk | bk in st.books && (query == "" || CatalogHit(st, bk, query)) :: bk.id
  }

  function CatalogRowOf(st: Store, query: string, bk: Book): Option<CatalogRow>
  {
    if query != "" && !CatalogHit(st, bk, query) then None
    else
      Some(CatalogRow(bk.id, bk.name, bk.genre, bk.isbn, TotalCopies(st, bk.id), LoanedCount(st, bk.id),
                      ClampedAvailable(st, bk.id), AuthorNames(st, bk.id)))
  }

  lemma CatalogRowKeys(st: Store, query: string, f: Book -> Option<CatalogRow>)
    requires forall bk :: f(bk) == CatalogRowOf(st, query, bk)
    ensures forall k ::
              (exists bk :: bk in st.books && f(bk).Some? && CatalogRowKey(f(bk).value) == k)
              <==> k in CatalogBookIds(st, query)
  {
    forall k | k in CatalogBookIds(st, query)
      ensures exists bk :: bk in st.books && f(bk).Some? && CatalogRowKey(f(bk).value) == k
    {
      var bk :| bk in st.books && (query == "" || CatalogHit(st, bk, query)) && bk.id == k;
      assert f(bk).Some?;
    }
  }

  /** A catalog line's counts and author names are the book's. */
  predicate CatalogCounts(st: Store, row: CatalogRow)
  {
    && 0 <= row.available <= row.total
    && row.total == TotalCopies(st, row.bookId)
    && row.loaned == LoanedCount(st, row.bookId)
    && row.available == ClampedAvailable(st, row.bookId)
    && row.authors == AuthorNames(st, row.bookId)
  }

  /**
   * The catalog: the matching books in title order, each with its copy count,
   * active loan count, availability between 0 and the copy count, and sorted
   * author names.
   */
  function CatalogListing(st: Store, query: string): (r: seq<CatalogRow>)
    ensures SortedBy(r, CatalogByName)
    ensures KeySet(r, CatalogRowKey) == CatalogBookIds(st, query)
    ensures Keyed(st) ==> UniqueKeys(r, CatalogRowKey)
    ensures forall row :: row in r ==> CatalogCounts(st, row)
    ensures forall row :: row in r <==> exists bk :: bk in st.books && CatalogRowOf(st, query, bk) == Some(row)
  {
    StrKeyPreorder(CatalogByName, CatalogRowName);
    var f := (bk: Book) => CatalogRowOf(st, query, bk);
    ListingAll(st.books, f, CatalogByName, (row: CatalogRow) => CatalogCounts(st, row));
    ListingKeys(st.books, f, CatalogByName, CatalogRowKey);
    CatalogRowKeys(st, query, f);
    var r := SortBy(FilterMap(st.books, f), CatalogByName);
    ListingMembers(st.books, f, CatalogByName);
    assert Keyed(st) ==> UniqueKeys(r, CatalogRowKey) by {
      if Keyed(st) {
        ListingUniqueKeys(st.books, f, BookKey, CatalogRowKey, CatalogByName);
      }
    }
    r
  }

  /** In a consistent store each catalog line counts the book's copies no active loan holds. */
  lemma CatalogShowsFreeCopies(st: Store, query: string)
    requires WellFormed(st)
    ensures forall row :: row in CatalogListing(st, query) ==>
              row.available == |FreeCopyIds(st, row.bookId)| && row.available == row.total - row.loaned
  {
    var rows := CatalogListing(st, query);
    forall row | row in rows
      ensures row.available == |FreeCopyIds(st, row.bookId)| && row.available == row.total - row.loaned
    {
      assert row.available == ClampedAvailable(st, row.bookId);
      AvailableCountsFreeCopies(st, row.bookId);
    }
  }

  /**
   * For a query free of LIKE metacharacters, a book is listed exactly when the
   * query occurs, ignoring case, in its title, its genre or an author's name.
   */
  lemma CatalogSearchIsSubstring(st: Store, query: string, bk: Book)
    requires Keyed(st) && bk in st.books
    requires query != "" && NoMeta(query)
    ensures bk.id in KeySet(CatalogListing(st, query), CatalogRowKey) <==> (
              || IsSubstring(Lower(query), Lower(bk.name))
              || IsSubstring(Lower(query), Lower(bk.genre))
              || exists a :: a in st.authors && (bk.id, a.id) in st.bookAuthors
                             && IsSubstring(Lower(query), Lower(a.name)))
  {
    ContainsIsSubstring(bk.name, query);
    ContainsIsSubstring(bk.genre, query);
    forall a | a in st.authors
      ensures Contains(a.name, query) <==> IsSubstring(Lower(query), Lower(a.name))
    {
      ContainsIsSubstring(a.name, query);
    }
    if bk.id in CatalogBookIds(st, query) {
      var other :| other in st.books && (query == "" || CatalogHit(st, other, query)) && other.id == bk.id;
      FindUnique(st.books, BookKey, other);
      FindUnique(st.books, BookKey, bk);
    }
  }
}

=== FILE: cpf.dfy ===
/**
 * CPF (the Brazilian national ID) normalisation done by `clean_cpf` in both the
 * reader form and the staff form: the mask characters `.` and `-` are removed,
 * every other character is kept in order.
 */
module Cpf {
  import Seqs

  /** `s.replace(c, "")`: every occurrence of `c` removed. */
  function RemoveChar(s: string, c: char): string
  {
    if |s| == 0 then ""
    else (if s[0] == c then "" else [s[0]]) + RemoveChar(s[1..], c)
  }

  lemma {:induction false} RemoveCount(s: string, c: char, d: char)
    ensures multiset(RemoveChar(s, c))[d] == if c == d then 0 else multiset(s)[d]
  {
    if |s| > 0 {
      var t := s[1..];
      RemoveCount(t, c, d);
      assert s == [s[0]] + t;
      var p: string := if s[0] == c then "" else [s[0]];
      assert RemoveChar(s, c) == p + RemoveChar(t, c);
      assert multiset(RemoveChar(s, c)) == multiset(p) + multiset(RemoveChar(t, c));
      assert multiset(s) == multiset{s[0]} + multiset(t);
    }
  }

  lemma {:induction false} RemoveConcat(a: string, b: string, c: char)
    ensures RemoveChar(a + b, c) == RemoveChar(a, c) + RemoveChar(b, c)
  {
    if |a| == 0 {
      assert a + b == b;
    } else {
      assert (a + b)[0] == a[0] && (a + b)[1..] == a[1..] + b;
      RemoveConcat(a[1..], b, c);
    }
  }

  lemma RemoveSingle(x: char, c: char)
    ensures RemoveChar([x], c) == if x == c then [] else [x]
  {
    assert [x][1..] == [];
  }

  predicate IsMask(c: char)
  {
    c == '.' || c == '-'
  }

  predicate NotMask(c: char)
  {
    !IsMask(c)
  }

  /** `cpf.replace(".", "").replace("-", "")` */
  function CleanCpf(s: string): string
  {
    RemoveChar(RemoveChar(s, '.'), '-')
  }

  /** Each kept character keeps its multiplicity, so the length drops by the mask count. */
  lemma CleanCpfCounts(s: string)
    ensures forall x :: NotMask(x) ==> multiset(CleanCpf(s))[x] == multiset(s)[x]
    ensures |CleanCpf(s)| == |s| - multiset(s)['.'] - multiset(s)['-']
  {
    forall x | NotMask(x)
      ensures multiset(CleanCpf(s))[x] == multiset(s)[x]
    {
      RemoveCount(s, '.', x);
      RemoveCount(RemoveChar(s, '.'), '-', x);
    }
    RemoveCount(s, '.', '-');
    RemoveLength(s, '.');
    RemoveLength(RemoveChar(s, '.'), '-');
  }

  lemma {:induction false} RemoveLength(s: string, c: char)
    ensures |RemoveChar(s, c)| == |s| - multiset(s)[c]
  {
    if |s| > 0 {
      RemoveLength(s[1..], c);
      assert s == [s[0]] + s[1..];
    }
  }

  /** Cleaning distributes over concatenation. */
  lemma CleanConcat(a: string, b: string)
    ensures CleanCpf(a + b) == CleanCpf(a) + CleanCpf(b)
  {
    RemoveConcat(a, b, '.');
    RemoveConcat(RemoveChar(a, '.'), RemoveChar(b, '.'), '-');
  }

  /** The two passes equal one pass that keeps the non-mask characters in order. */
  lemma {:induction false} CleanCpfKeepsOthersInOrder(s: string)
    ensures CleanCpf(s) == Seqs.Filter(s, NotMask)
  {
    if |s| > 0 {
      CleanCpfKeepsOthersInOrder(s[1..]);
      assert s == [s[0]] + s[1..];
      CleanConcat([s[0]], s[1..]);
      RemoveSingle(s[0], '.');
      if s[0] != '.' {
        RemoveSingle(s[0], '-');
      } else {
        assert RemoveChar([], '-') == [];
      }
    }
  }

  /** The cleaned CPF holds no mask character and every other character of the input. */
  lemma CleanCpfMembers(s: string)
    ensures '.' !in CleanCpf(s) && '-' !in CleanCpf(s)
    ensures forall x :: x in CleanCpf(s) <==> x in s && NotMask(x)
  {
    CleanCpfKeepsOthersInOrder(s);
  }

  /** Cleaning a cleaned CPF changes nothing. */
  lemma CleanCpfIdempotent(s: string)
    ensures CleanCpf(CleanCpf(s)) == CleanCpf(s)
  {
    CleanCpfMembers(s);
    NoMaskUnchanged(CleanCpf(s));
  }

  lemma {:induction false} NoMaskUnchanged(s: string)
    requires '.' !in s && '-' !in s
    ensures CleanCpf(s) == s
  {
    if |s| > 0 {
      NoMaskUnchanged(s[1..]);
      assert s == [s[0]] + s[1..];
      CleanConcat([s[0]], s[1..]);
    }
  }

  lemma CleanMaskChar(c: char)
    requires IsMask(c)
    ensures CleanCpf([c]) == ""
  {
    CleanCpfKeepsOthersInOrder([c]);
  }

  /** A mask character appended to the input is dropped. */
  lemma CleanDropsMask(s: string, c: char)
    requires IsMask(c)
    ensures CleanCpf(s + [c]) == CleanCpf(s)
  {
    CleanConcat(s, [c]);
    CleanMaskChar(c);
  }

  /** A mask-free text appended to the input is kept as it is. */
  lemma CleanKeepsPlain(s: string, t: string)
    requires '.' !in t && '-' !in t
    ensures CleanCpf(s + t) == CleanCpf(s) + t
  {
    CleanConcat(s, t);
    NoMaskUnchanged(t);
  }

  /** A CPF typed with the usual mask `ddd.ddd.ddd-dd` loses exactly its mask. */
  lemma CleanMaskedCpf(a: string, b: string, c: string, d: string)
    requires '.' !in a && '-' !in a && '.' !in b && '-' !in b
    requires '.' !in c && '-' !in c && '.' !in d && '-' !in d
    ensures CleanCpf(a + "." + b + "." + c + "-" + d) == a + b + c + d
  {
    NoMaskUnchanged(a);
    var s1 := a + ".";
    CleanDropsMask(a, '.');
    var s2 := s1 + b;
    CleanKeepsPlain(s1, b);
    var s3 := s2 + ".";
    CleanDropsMask(s2, '.');
    var s4 := s3 + c;
    CleanKeepsPlain(s3, c);
    var s5 := s4 + "-";
    CleanDropsMask(s4, '-');
    CleanKeepsPlain(s5, d);
  }

  /** The masked form shown as the field placeholder cleans to eleven digits. */
  lemma CleanCpfPlaceholder(s: string)
    requires s == "000.000.000-00"
    ensures CleanCpf(s) == "00000000000"
  {
    var z := "000";
    assert s == z + "." + z + "." + z + "-" + "00";
    CleanMaskedCpf(z, z, z, "00");
  }
}

=== FILE: loans.dfy ===
/**
 * The loan lifecycle (emprestimos): the form choices, creating a loan, the
 * active-loan list with its search and late flags, the return screen with its
 * lateness and fine rules, returning a loan, and deleting a loan record.
 */
module Loans {
  import opened Maybe
  import opened Seqs
  import opened Text
  import opened Schema

  /** The fixed loan period in days. */
  const LoanDays: int := 14

  /** The suggested fine per late day: R$ 1,00. */
  const FinePerDay: Cents := 100

  /** `max_digits=10, decimal_places=2`: a fine has at most ten digits of cents. */
  const FineBound: int := 10_000_000_000

  const ReaderPlaceholder: string := "--- Selecione um Leitor ---"
  const CopyPlaceholder: string := "--- Selecione um Exemplar Disponível ---"

  /** One `<option>` of a select box; `None` is the empty placeholder value ''. */
  datatype Choice = Choice(value: Option<Id>, text: string)

  function ChoiceIds(cs: seq<Choice>): set<Id>
  {
    set c | c in cs && c.value.Some? :: c.value.value
  }

  /** One option per row, valued by the row's id, in the order of `rows`. */
  function ToChoices<T>(rows: seq<T>, key: T -> Id, text: T -> string): (r: seq<Choice>)
    ensures |r| == |rows|
    ensures forall i :: 0 <= i < |r| ==> r[i] == Choice(Some(key(rows[i])), text(rows[i]))
    ensures ChoiceIds(r) == KeySet(rows, key)
  {
    if |rows| == 0 then []
    else
      var rest := ToChoices(rows[1..], key, text);
      var r := [Choice(Some(key(rows[0])), text(rows[0]))] + rest;
      assert forall x :: x in rows ==> x == rows[0] || x in rows[1..];
      assert forall x :: x in rows[1..] ==> x in rows;
      assert forall c :: c in r ==> c == r[0] || c in rest;
      r
  }

  /** The empty placeholder offers no id. */
  lemma PlaceholderAddsNoId(text: string, opts: seq<Choice>)
    ensures ChoiceIds([Choice(None, text)] + opts) == ChoiceIds(opts)
  {
    var r := [Choice(None, text)] + opts;
    assert forall c :: c in r ==> c == r[0] || c in opts;
  }

  /** A loan with the copy, book and reader rows its SQL joins reach. */
  datatype Joined = Joined(loan: Loan, copy: Copy, book: Book, reader: Reader)

  /** `Emprestimo JOIN Exemplar JOIN Livro JOIN Leitor` for one loan row. */
  function Join(st: Store, l: Loan): (r: Option<Joined>)
    ensures r.Some? ==> (r.value.loan == l && r.value.copy in st.copies && r.value.book in st.books
                         && r.value.reader in st.readers)
    ensures r.Some? ==> (r.value.copy.id == l.copyId && r.value.book.id == r.value.copy.bookId
                         && r.value.reader.id == l.readerId)
  {
    match FindCopy(st, l.copyId)
    case None => None
    case Some(c) =>
      match FindBook(st, c.bookId)
      case None => None
      case Some(b) =>
        match FindReader(st, l.readerId)
        case None => None
        case Some(rd) => Some(Joined(l, c, b, rd))
  }

  /** With the database's foreign keys in place, every loan row joins. */
  lemma JoinTotal(st: Store, l: Loan)
    requires Keyed(st)
    requires l in st.loans
    ensures Join(st, l).Some?
  {
    var c := FindCopy(st, l.copyId).value;
    assert c.bookId in BookIds(st);
  }

  // ----- Reader choices -----------------------------------------------------

  predicate ReaderByName(a: Reader, b: Reader)
  {
    StrLe(a.name, b.name)
  }

  function ReaderName(r: Reader): string { r.name }

  /** The reader select box: placeholder first, then every reader ordered by name. */
  function ReaderChoices(st: Store): (r: seq<Choice>)
    ensures |r| == |st.readers| + 1
    ensures r[0] == Choice(None, ReaderPlaceholder)
    ensures ChoiceIds(r) == ReaderIds(st)
    ensures forall i, j :: 1 <= i < j < |r| ==> StrLe(r[i].text, r[j].text)
    ensures forall i :: 1 <= i < |r| ==> exists rd :: rd in st.readers && r[i] == Choice(Some(rd.id), rd.name)
    ensures forall rd :: rd in st.readers ==> Choice(Some(rd.id), rd.name) in r
  {
    StrKeyPreorder(ReaderByName, ReaderName);
    var sorted := SortBy(st.readers, ReaderByName);
    SortByMembers(st.readers, ReaderByName);
    assert KeySet(sorted, ReaderKey) == ReaderIds(st);
    var opts := ToChoices(sorted, ReaderKey, ReaderName);
    PlaceholderAddsNoId(ReaderPlaceholder, opts);
    var r := [Choice(None, ReaderPlaceholder)] + opts;
    ReaderOptions(st.readers, sorted);
    r
  }

  /** The options built from readers sorted by name carry each reader's id and name, in name order. */
  lemma ReaderOptions(readers: seq<Reader>, sorted: seq<Reader>)
    requires SortedBy(sorted, ReaderByName)
    requires forall x :: x in sorted <==> x in readers
    ensures var r := [Choice(None, ReaderPlaceholder)] + ToChoices(sorted, ReaderKey, ReaderName);
            && (forall i, j :: 1 <= i < j < |r| ==> StrLe(r[i].text, r[j].text))
            && (forall i :: 1 <= i < |r| ==> exists rd :: rd in readers && r[i] == Choice(Some(rd.id), rd.name))
            && (forall rd :: rd in readers ==> Choice(Some(rd.id), rd.name) in r)
  {
    var r := [Choice(None, ReaderPlaceholder)] + ToChoices(sorted, ReaderKey, ReaderName);
    PlaceholderThenRows(ReaderPlaceholder, sorted, ReaderKey, ReaderName);
    forall i | 1 <= i < |r| ensures exists rd :: rd in readers && r[i] == Choice(Some(rd.id), rd.name) {
      var rd := sorted[i - 1];
      assert rd in sorted && r[i] == Choice(Some(rd.id), rd.name);
    }
    forall i, j | 1 <= i < j < |r| ensures StrLe(r[i].text, r[j].text) {
      assert r[i].text == sorted[i - 1].name && r[j].text == sorted[j - 1].name;
      assert ReaderByName(sorted[i - 1], sorted[j - 1]);
    }
  }

  /** After the placeholder, the options are exactly the rows' (id, text) pairs. */
  lemma PlaceholderThenRows<T>(placeholder: string, rows: seq<T>, key: T -> Id, text: T -> string)
    ensures var r := [Choice(None, placeholder)] + ToChoices(rows, key, text);
            && (forall i :: 1 <= i < |r| ==> r[i] == Choice(Some(key(rows[i - 1])), text(rows[i - 1])))
            && (forall i :: 1 <= i < |r| ==> exists x :: x in rows && r[i] == Choice(Some(key(x)), text(x)))
            && (forall x :: x in rows ==> Choice(Some(key(x)), text(x)) in r)
  {
    var opts := ToChoices(rows, key, text);
    var r := [Choice(None, placeholder)] + opts;
    forall i | 1 <= i < |r| ensures r[i] == Choice(Some(key(rows[i - 1])), text(rows[i - 1])) && rows[i - 1] in rows {
      assert r[i] == opts[i - 1];
    }
    forall x | x in rows ensures Choice(Some(key(x)), text(x)) in r {
      var k :| 0 <= k < |rows| && rows[k] == x;
      assert r[k + 1] == opts[k];
    }
  }

  // ----- Available copies ---------------------------------------------------

  /** One available copy: `e.id_exemplar, l.nome, e.numero_patrimonio`. */
  datatype CopyRow = CopyRow(copyId: Id, bookName: string, asset: int)

  function CopyRowKey(r: CopyRow): Id { r.copyId }
  function CopyRowName(r: CopyRow): string { r.bookName }

  predicate CopyByBookName(a: CopyRow, b: CopyRow)
  {
    StrLe(a.bookName, b.bookName)
  }

  /** Copies whose book exists and which no 'Em Andamento' loan references. */
  function AvailableCopyIds(st: Store): set<Id>
  {
    set c | c in st.copies && c.bookId in BookIds(st) && c.id !in ActiveCopyIds(st) :: c.id
  }

  function AvailableRow(st: Store, c: Copy): Option<CopyRow>
  {
    if c.id in ActiveCopyIds(st) then None
    else
      match FindBook(st, c.bookId)
      case None => None
      case Some(b) => Some(CopyRow(c.id, b.name, c.asset))
  }

  lemma AvailableRowKeys(st: Store, f: Copy -> Option<CopyRow>)
    requires forall c :: f(c) == AvailableRow(st, c)
    ensures forall k ::
              (exists c :: c in st.copies && f(c).Some? && CopyRowKey(f(c).value) == k)
              <==> k in AvailableCopyIds(st)
  {
    forall k | k in AvailableCopyIds(st)
      ensures exists c :: c in st.copies && f(c).Some? && CopyRowKey(f(c).value) == k
    {
      var c :| c in st.copies && c.bookId in BookIds(st) && c.id !in ActiveCopyIds(st) && c.id == k;
      assert f(c).Some?;
    }
  }

  /** The copies offered by the loan form, ordered by book name. */
  function AvailableCopies(st: Store): (r: seq<CopyRow>)
    ensures SortedBy(r, CopyByBookName)
    ensures KeySet(r, CopyRowKey) == AvailableCopyIds(st)
    ensures Keyed(st) ==> UniqueKeys(r, CopyRowKey)
    ensures forall row :: row in r <==> exists c :: c in st.copies && AvailableRow(st, c) == Some(row)
  {
    StrKeyPreorder(CopyByBookName, CopyRowName);
    var f := (c: Copy) => AvailableRow(st, c);
    ListingKeys(st.copies, f, CopyByBookName, CopyRowKey);
    AvailableRowKeys(st, f);
    var r := SortBy(FilterMap(st.copies, f), CopyByBookName);
    ListingMembers(st.copies, f, CopyByBookName);
    assert Keyed(st) ==> UniqueKeys(r, CopyRowKey) by {
      if Keyed(st) {
        ListingUniqueKeys(st.copies, f, CopyKey, CopyRowKey, CopyByBookName);
      }
    }
    r
  }

  function CopyText(row: CopyRow): string
  {
    row.bookName + " (Pat. " + IntText(row.asset) + ")"
  }

  /** The copy select box: placeholder first, then `"<book> (Pat. <asset>)"` per available copy. */
  function CopyChoices(st: Store): (r: seq<Choice>)
    ensures |r| == |AvailableCopies(st)| + 1 && r[0] == Choice(None, CopyPlaceholder)
    ensures ChoiceIds(r) == AvailableCopyIds(st)
    ensures forall i :: 1 <= i < |r| ==> r[i].value == Some(AvailableCopies(st)[i - 1].copyId)
  {
    var rows := AvailableCopies(st);
    var opts := ToChoices(rows, CopyRowKey, CopyText);
    PlaceholderAddsNoId(CopyPlaceholder, opts);
    var r := [Choice(None, CopyPlaceholder)] + opts;
    assert forall i :: 1 <= i < |r| ==> r[i] == opts[i - 1];
    r
  }

  // ----- Active-loan choices (the return screen's dropdown) ------------------

  /** One active loan in the return dropdown. */
  datatype ActiveRow = ActiveRow(loanId: Id, readerName: string, bookName: string, asset: int)

  function ActiveRowKey(r: ActiveRow): Id { r.loanId }
  function ActiveRowReader(r: ActiveRow): string { r.readerName }
  function ActiveRowBook(r: ActiveRow): string { r.bookName }

  predicate ByReaderThenBook(a: ActiveRow, b: ActiveRow)
  {
    PairLe(a.readerName, a.bookName, b.readerName, b.bookName)
  }

  /** Loans with status 'Em Andamento' whose joins succeed. */
  function ActiveLoanIds(st: Store): set<Id>
  {
    set l | l in st.loans && IsActive(l) && Join(st, l).Some? :: l.id
  }

  function ActiveRowOf(st: Store, l: Loan): Option<ActiveRow>
  {
    if !IsActive(l) then None
    else
      match Join(st, l)
      case None => None
      case Some(j) => Some(ActiveRow(l.id, j.reader.name, j.book.name, j.copy.asset))
  }

  lemma ActiveRowKeys(st: Store, f: Loan -> Option<ActiveRow>)
    requires forall l :: f(l) == ActiveRowOf(st, l)
    ensures forall k ::
              (exists l :: l in st.loans && f(l).Some? && ActiveRowKey(f(l).value) == k)
              <==> k in ActiveLoanIds(st)
  {
    forall k | k in ActiveLoanIds(st)
      ensures exists l :: l in st.loans && f(l).Some? && ActiveRowKey(f(l).value) == k
    {
      var l :| l in st.loans && IsActive(l) && Join(st, l).Some? && l.id == k;
      assert f(l).Some?;
    }
  }

  /** The active loans, ordered by reader name and then book name. */
  function ActiveLoanRows(st: Store): (r: seq<ActiveRow>)
    ensures SortedBy(r, ByReaderThenBook)
    ensures KeySet(r, ActiveRowKey) == ActiveLoanIds(st)
    ensures Keyed(st) ==> UniqueKeys(r, ActiveRowKey)
    ensures forall row :: row in r <==> exists l :: l in st.loans && ActiveRowOf(st, l) == Some(row)
  {
    PairKeyPreorder(ByReaderThenBook, ActiveRowReader, ActiveRowBook);
    var f := (l: Loan) => ActiveRowOf(st, l);
    ListingKeys(st.loans, f, ByReaderThenBook, ActiveRowKey);
    ActiveRowKeys(st, f);
    var r := SortBy(FilterMap(st.loans, f), ByReaderThenBook);
    ListingMembers(st.loans, f, ByReaderThenBook);
    assert Keyed(st) ==> UniqueKeys(r, ActiveRowKey) by {
      if Keyed(st) {
        ListingUniqueKeys(st.loans, f, LoanKey, ActiveRowKey, ByReaderThenBook);
      }
    }
    r
  }

  function ActiveText(row: ActiveRow): string
  {
    row.readerName + " - " + row.bookName + " (Pat. " + IntText(row.asset) + ")"
  }

  /** The return dropdown: `"<reader> - <book> (Pat. <asset>)"` per active loan, no placeholder. */
  function ActiveLoanChoices(st: Store): (r: seq<Choice>)
    ensures |r| == |ActiveLoanRows(st)|
    ensures ChoiceIds(r) == ActiveLoanIds(st)
    ensures forall i :: 0 <= i < |r| ==> r[i].value == Some(ActiveLoanRows(st)[i].loanId)
  {
    ToChoices(ActiveLoanRows(st), ActiveRowKey, ActiveText)
  }

  /** Under the database keys, the dropdown lists every 'Em Andamento' loan. */
  lemma ActiveLoanIdsAreActiveLoans(st: Store)
    requires Keyed(st)
    ensures ActiveLoanIds(st) == set l | l in st.loans && IsActive(l) :: l.id
  {
    forall l | l in st.loans && IsActive(l) ensures l.id in ActiveLoanIds(st) {
      JoinTotal(st, l);
    }
  }

  // ----- Creating a loan ----------------------------------------------------

  /** The loan inserted for a valid form. */
  function NewLoan(st: Store, copyId: Id, readerId: Id, staffId: Id, today: Day): Loan
  {
    Loan(st.nextLoanId, copyId, readerId, staffId, today, today + LoanDays, Active, None, None, None)
  }

  /** `if not id_funcionario_logado`: a missing session id and the id 0 are both falsy. */
  predicate LoggedIn(staff: Option<Id>)
  {
    staff.Some? && staff.value != 0
  }

  /**
   * Creates a loan. The copy and the reader must be among the form's choices;
   * then a logged-in staff member is required; the new loan is due 14 days after today.
   */
  function CreateLoan(st: Store, copyId: Id, readerId: Id, staff: Option<Id>, today: Day): (r: Step)
    ensures r.outcome == Done <==>
              copyId in AvailableCopyIds(st) && readerId in ReaderIds(st) && staff.Some? && staff.value != 0
    ensures r.outcome == Failed(InvalidForm) <==> !(copyId in AvailableCopyIds(st) && readerId in ReaderIds(st))
    ensures r.outcome == Failed(SessionExpired) <==>
              copyId in AvailableCopyIds(st) && readerId in ReaderIds(st) && (staff.None? || staff.value == 0)
    ensures r.outcome != Done ==> r.store == st
    ensures r.outcome == Done ==> (
              && |r.store.loans| == |st.loans| + 1
              && r.store.loans[..|st.loans|] == st.loans
              && var l := r.store.loans[|st.loans|];
              && l.id == st.nextLoanId && l.copyId == copyId && l.readerId == readerId && l.staffId == staff.value
              && l.status == Active && l.loanDate == today && l.dueDate == l.loanDate + 14
              && l.returnDate.None? && l.fine.None? && l.note.None?)
    ensures r.outcome == Done ==> r.store.(loans := st.loans, nextLoanId := st.nextLoanId) == st
    ensures r.outcome == Done && Keyed(st) ==> r.store.loans[|st.loans|].id !in LoanIds(st)
    ensures WellFormed(st) ==> WellFormed(r.store)
  {
    var copyOk := copyId in ChoiceIds(CopyChoices(st));
    var readerOk := readerId in ChoiceIds(ReaderChoices(st));
    if !(copyOk && readerOk) then Step(st, Failed(InvalidForm))
    else if !LoggedIn(staff) then Step(st, Failed(SessionExpired))
    else
      var l := NewLoan(st, copyId, readerId, staff.value, today);
      assert (st.loans + [l])[..|st.loans|] == st.loans;
      AppendLoanKeepsWellFormed(st, l);
      Step(st.(loans := st.loans + [l], nextLoanId := st.nextLoanId + 1), Done)
  }

  // ----- Lateness and the suggested fine -------------------------------------

  /** The return screen's lateness: `isLate` and the days shown (0 when on time). */
  datatype Lateness = Lateness(isLate: bool, daysShown: int)

  /** `dias_atraso = (hoje - data_prevista).days`, late when it is positive. */
  function ReturnLateness(due: Day, today: Day): (r: Lateness)
    ensures r.isLate <==> due < today
    ensures r.isLate ==> r.daysShown == today - due >= 1
    ensures !r.isLate ==> r.daysShown == 0
  {
    var days := today - due;
    var late := days > 0;
    Lateness(late, if late then days else 0)
  }

  /** The pre-filled fine on the return screen: R$ 1,00 per late day, nothing when on time. */
  function SuggestedFine(lt: Lateness): (r: Option<Cents>)
    ensures r.Some? <==> lt.isLate
    ensures r.Some? ==> r.value == FinePerDay * lt.daysShown
  {
    if lt.isLate then Some(lt.daysShown * FinePerDay) else None
  }

  /** The worked example: due 2024-01-01 (day 19723), returned 2024-01-11 (day 19733). */
  lemma ReturnExample()
    ensures ReturnLateness(19723, 19733) == Lateness(true, 10)
    ensures SuggestedFine(ReturnLateness(19723, 19733)) == Some(1000)
  {
  }

  /** The outcome of cleaning the fine field: the amount to store, or why it was refused. */
  datatype FineCheck = Accepted(cents: Cents) | Rejected(error: Error)

  /**
   * The fine field as written: required when late, at most ten digits, and a
   * blank value stored as 0 (`dados.get('multa') or 0.00`). The `min_value`
   * assigned after the field was built adds no validator, so no minimum applies.
   */
  function CleanFineAsWritten(isLate: bool, input: Option<Cents>): (r: FineCheck)
    ensures r.Accepted? <==> (if isLate then input.Some? else true) && (input.Some? ==> -FineBound < input.value < FineBound)
    ensures r.Accepted? ==> r.cents == input.GetOr(0)
  {
    if isLate && input.None? then Rejected(FineRequired)
    else if input.Some? && !(-FineBound < input.value < FineBound) then Rejected(FineTooLarge)
    else Accepted(input.GetOr(0))
  }

  /** A late return with a zero or negative fine passes the as-written form. */
  lemma LateZeroFineAccepted()
    ensures CleanFineAsWritten(true, Some(0)) == Accepted(0)
    ensures CleanFineAsWritten(true, Some(-500)) == Accepted(-500)
  {
  }

  /**
   * The fine field with the minimum the form means to impose: when late the fine
   * is required and at least one cent; when on time it is optional, defaults to
   * 0 and has no minimum, and a submitted value is kept as it is.
   */
  function CleanFine(isLate: bool, input: Option<Cents>): (r: FineCheck)
    ensures isLate ==> (r.Accepted? <==> input.Some? && 1 <= input.value < FineBound)
    ensures !isLate ==> (r.Accepted? <==> input.None? || -FineBound < input.value < FineBound)
    ensures isLate && input.None? ==> r == Rejected(FineRequired)
    ensures r.Accepted? ==> r.cents == input.GetOr(0)
  {
    if isLate && input.None? then Rejected(FineRequired)
    else if input.Some? && !(-FineBound < input.value < FineBound) then Rejected(FineTooLarge)
    else if isLate && input.value < 1 then Rejected(FineTooSmall)
    else Accepted(input.GetOr(0))
  }

  /**
   * The intended rule only narrows the as-written one: whatever it accepts the
   * form accepts with the same amount, and the inputs it adds a refusal for are
   * exactly the late fines from -R$ 99.999.999,99 up to R$ 0,00.
   */
  lemma CleanFineNarrowsAsWritten(isLate: bool, input: Option<Cents>)
    ensures CleanFine(isLate, input).Accepted? ==> CleanFineAsWritten(isLate, input) == CleanFine(isLate, input)
    ensures (CleanFineAsWritten(isLate, input).Accepted? && !CleanFine(isLate, input).Accepted?) <==>
              (isLate && input.Some? && -FineBound < input.value < 1)
  {
  }

  /** On time, the two versions agree: the minimum only concerns late returns. */
  lemma CleanFineOnTimeUnchanged(input: Option<Cents>)
    ensures CleanFine(false, input) == CleanFineAsWritten(false, input)
  {
  }

  // ----- Returning a loan ---------------------------------------------------

  /** What the return screen shows for a selected loan before it is confirmed. */
  datatype ReturnView = ReturnView(loan: Joined, lateness: Lateness, suggested: Option<Cents>)

  /** The return screen for `loanId` (a GET): details, lateness and the suggested fine. */
  function ShowReturn(st: Store, loanId: Id, today: Day): (r: Option<ReturnView>)
    ensures r.None? <==> FindLoan(st, loanId).None? || Join(st, FindLoan(st, loanId).value).None?
    ensures r.Some? ==> (r.value.loan.loan.id == loanId
                         && r.value.lateness.isLate == (r.value.loan.loan.dueDate < today)
                         && (r.value.suggested.Some? <==> r.value.lateness.isLate))
    ensures r.Some? ==> (&& r.value.loan.loan == FindLoan(st, loanId).value
                         && r.value.lateness == ReturnLateness(FindLoan(st, loanId).value.dueDate, today)
                         && r.value.suggested == SuggestedFine(r.value.lateness))
  {
    match FindLoan(st, loanId)
    case None => None
    case Some(l) =>
      match Join(st, l)
      case None => None
      case Some(j) =>
        var lt := ReturnLateness(l.dueDate, today);
        Some(ReturnView(j, lt, SuggestedFine(lt)))
  }

  /** The row update of a confirmed return. */
  function Close(l: Loan, today: Day, fine: Cents, note: string): Loan
  {
    l.(status := Returned, returnDate := Some(today), fine := Some(fine), note := Some(note))
  }

  /** The UPDATE of a return: every row with `loanId` closed, the others kept. */
  function CloseAll(loans: seq<Loan>, loanId: Id, today: Day, fine: Cents, note: string): (r: seq<Loan>)
    ensures |r| == |loans|
    ensures forall i :: 0 <= i < |loans| ==>
              r[i] == (if loans[i].id == loanId then Close(loans[i], today, fine, note) else loans[i])
  {
    seq(|loans|, i requires 0 <= i < |loans| =>
      if loans[i].id == loanId then Close(loans[i], today, fine, note) else loans[i])
  }

  /** A successful return: exactly the rows with `loanId` closed with `fine`, nothing else changed. */
  predicate ReturnApplied(st: Store, after: Store, loanId: Id, today: Day, fine: Cents, note: string)
  {
    && |after.loans| == |st.loans|
    && after.(loans := st.loans) == st
    && forall i :: 0 <= i < |st.loans| ==>
         after.loans[i] == (if st.loans[i].id == loanId then Close(st.loans[i], today, fine, note) else st.loans[i])
  }

  /** The POST once the fine field is cleaned: a refusal changes nothing, an accepted fine runs the UPDATE. */
  function Commit(st: Store, loanId: Id, today: Day, check: FineCheck, note: string): (r: Step)
    ensures check.Rejected? ==> r == Step(st, Failed(check.error))
    ensures check.Accepted? ==> r.outcome == Done && ReturnApplied(st, r.store, loanId, today, check.cents, note)
    ensures WellFormed(st) ==> WellFormed(r.store)
  {
    match check
    case Rejected(e) => Step(st, Failed(e))
    case Accepted(cents) =>
      var loans := CloseAll(st.loans, loanId, today, cents, note);
      RewriteLoansKeepsWellFormed(st, loans);
      Step(st.(loans := loans), Done)
  }

  /**
   * Confirms a return (a POST) under the intended fine rule. An unknown loan is
   * refused; a late loan needs a fine of at least one cent; the UPDATE then marks
   * every row with that id returned today. The loan's status is not checked, so
   * a returned loan can be returned again.
   */
  function ReturnLoan(st: Store, loanId: Id, today: Day, fine: Option<Cents>, note: string): (r: Step)
    ensures FindLoan(st, loanId).None? ==> r == Step(st, Failed(NotFound))
    ensures r.outcome != Done ==> r.store == st
    ensures r.outcome == Done <==> (
              && ShowReturn(st, loanId, today).Some?
              && CleanFine(ShowReturn(st, loanId, today).value.lateness.isLate, fine).Accepted?)
    ensures r.outcome == Done ==> ReturnApplied(st, r.store, loanId, today, fine.GetOr(0), note)
    ensures WellFormed(st) ==> WellFormed(r.store)
  {
    match ShowReturn(st, loanId, today)
    case None => Step(st, Failed(NotFound))
    case Some(v) => Commit(st, loanId, today, CleanFine(v.lateness.isLate, fine), note)
  }

  /**
   * The same POST with the fine field as the code builds it: a late return
   * accepts a fine of zero or less and stores it.
   */
  function ReturnLoanAsWritten(st: Store, loanId: Id, today: Day, fine: Option<Cents>, note: string): (r: Step)
    ensures FindLoan(st, loanId).None? ==> r == Step(st, Failed(NotFound))
    ensures r.outcome != Done ==> r.store == st
    ensures r.outcome == Done <==> (
              && ShowReturn(st, loanId, today).Some?
              && CleanFineAsWritten(ShowReturn(st, loanId, today).value.lateness.isLate, fine).Accepted?)
    ensures r.outcome == Done ==> ReturnApplied(st, r.store, loanId, today, fine.GetOr(0), note)
    ensures WellFormed(st) ==> WellFormed(r.store)
  {
    match ShowReturn(st, loanId, today)
    case None => Step(st, Failed(NotFound))
    case Some(v) => Commit(st, loanId, today, CleanFineAsWritten(v.lateness.isLate, fine), note)
  }

  /**
   * The intended return refuses a subset of what the code stores: where it
   * succeeds the code does the same, and the returns only the code lets through
   * are the late ones with a fine of zero or less.
   */
  lemma ReturnLoanNarrowsAsWritten(st: Store, loanId: Id, today: Day, fine: Option<Cents>, note: string)
    ensures ReturnLoan(st, loanId, today, fine, note).outcome == Done ==>
              ReturnLoanAsWritten(st, loanId, today, fine, note) == ReturnLoan(st, loanId, today, fine, note)
    ensures (ReturnLoanAsWritten(st, loanId, today, fine, note).outcome == Done
             && ReturnLoan(st, loanId, today, fine, note).outcome != Done) <==>
            (&& ShowReturn(st, loanId, today).Some?
             && ShowReturn(st, loanId, today).value.lateness.isLate
             && fine.Some? && -FineBound < fine.value < 1)
  {
    match ShowReturn(st, loanId, today)
    case None =>
    case Some(v) => CleanFineNarrowsAsWritten(v.lateness.isLate, fine);
  }

  /**
   * The fine rule of a return is decided by the stored row's due date: in a
   * keyed store, returning loan `l` succeeds iff the fine passes for `l.dueDate < today`.
   */
  lemma ReturnLoanUsesStoredDue(st: Store, l: Loan, today: Day, fine: Option<Cents>, note: string)
    requires Keyed(st) && l in st.loans
    ensures ReturnLoan(st, l.id, today, fine, note).outcome == Done <==> CleanFine(l.dueDate < today, fine).Accepted?
    ensures ReturnLoanAsWritten(st, l.id, today, fine, note).outcome == Done <==>
              CleanFineAsWritten(l.dueDate < today, fine).Accepted?
  {
    FindUnique(st.loans, LoanKey, l);
    JoinTotal(st, l);
  }

  /** As written, a late loan returned with a zero fine is closed with a fine of 0. */
  lemma LateZeroFineStored(st: Store, l: Loan, today: Day, note: string)
    requires Keyed(st) && l in st.loans && l.dueDate < today
    ensures ReturnLoanAsWritten(st, l.id, today, Some(0), note).outcome == Done
    ensures Close(l, today, 0, note) in ReturnLoanAsWritten(st, l.id, today, Some(0), note).store.loans
    ensures ReturnLoan(st, l.id, today, Some(0), note) == Step(st, Failed(FineTooSmall))
  {
    FindUnique(st.loans, LoanKey, l);
    assert FindLoan(st, l.id) == Some(l);
    JoinTotal(st, l);
    var v := ShowReturn(st, l.id, today);
    assert v.Some? && v.value.loan.loan == l && v.value.lateness.isLate;
    var r := ReturnLoanAsWritten(st, l.id, today, Some(0), note);
    var i :| 0 <= i < |st.loans| && st.loans[i] == l;
    assert r.store.loans[i] == Close(l, today, 0, note);
  }

  // ----- Deleting a loan record ---------------------------------------------

  predicate Other(loanId: Id, l: Loan)
  {
    l.id != loanId
  }

  /**
   * Deletes the loan row(s) with `loanId`. The confirmation lookup does not
   * raise for a missing id, so an unknown id deletes nothing and still succeeds.
   */
  function DeleteLoan(st: Store, loanId: Id): (r: Step)
    ensures r.outcome == Done
    ensures r.store.(loans := st.loans) == st
    ensures forall l :: l in r.store.loans <==> l in st.loans && l.id != loanId
    ensures loanId !in LoanIds(st) ==> r.store == st
  {
    var p := (l: Loan) => Other(loanId, l);
    FilterKeepsAll(st.loans, p);
    Step(st.(loans := Filter(st.loans, p)), Done)
  }

  // ----- The active-loan list -----------------------------------------------

  /** One row of the loan list, with its late flag and, when late, the days late. */
  datatype LoanRow = LoanRow(
    loanId: Id,
    loanDate: Day,
    dueDate: Day,
    status: LoanStatus,
    bookName: string,
    asset: int,
    readerName: string,
    isLate: bool,
    daysLate: Option<int>)

  function LoanRowKey(r: LoanRow): Id { r.loanId }
  function LoanRowDue(r: LoanRow): int { r.dueDate }

  predicate DueFirst(a: LoanRow, b: LoanRow)
  {
    a.dueDate <= b.dueDate
  }

  /** The search box: the query in the book name, the reader name or the asset number's text. */
  predicate SearchHit(j: Joined, query: string)
  {
    Contains(j.book.name, query) || Contains(j.reader.name, query) || Contains(IntText(j.copy.asset), query)
  }

  /** The loans the list shows: active, joined, and matching a non-empty query. */
  function ListedLoanIds(st: Store, query: string): set<Id>
  {
    set l | l in st.loans && IsActive(l) && Join(st, l).Some? && (query == "" || SearchHit(Join(st, l).value, query)) :: l.id
  }

  function ListRow(st: Store, l: Loan, query: string, today: Day): Option<LoanRow>
  {
    if !IsActive(l) then None
    else
      match Join(st, l)
      case None => None
      case Some(j) =>
        if query != "" && !SearchHit(j, query) then None
        else
          var late := l.dueDate < today;
          Some(LoanRow(l.id, l.loanDate, l.dueDate, l.status, j.book.name, j.copy.asset, j.reader.name,
                       late, if late then Some(today - l.dueDate) else None))
  }

  lemma ListRowKeys(st: Store, query: string, today: Day, f: Loan -> Option<LoanRow>)
    requires forall l :: f(l) == ListRow(st, l, query, today)
    ensures forall k ::
              (exists l :: l in st.loans && f(l).Some? && LoanRowKey(f(l).value) == k)
              <==> k in ListedLoanIds(st, query)
  {
    forall k | k in ListedLoanIds(st, query)
      ensures exists l :: l in st.loans && f(l).Some? && LoanRowKey(f(l).value) == k
    {
      var l :| l in st.loans && IsActive(l) && Join(st, l).Some?
               && (query == "" || SearchHit(Join(st, l).value, query)) && l.id == k;
      assert f(l).Some?;
    }
  }

  /** A loan-list row is active and its late flag and days late follow its due date. */
  predicate LateShown(row: LoanRow, today: Day)
  {
    && row.status == Active
    && (row.isLate <==> row.dueDate < today)
    && (row.isLate ==> row.daysLate == Some(today - row.dueDate) && today - row.dueDate >= 1)
    && (!row.isLate ==> row.daysLate.None?)
  }

  /**
   * The loan list: the active loans (filtered by the query when one is given),
   * earliest due date first, each flagged late when its due date has passed.
   */
  function ListActiveLoans(st: Store, query: string, today: Day): (r: seq<LoanRow>)
    ensures SortedBy(r, DueFirst)
    ensures KeySet(r, LoanRowKey) == ListedLoanIds(st, query)
    ensures Keyed(st) ==> UniqueKeys(r, LoanRowKey)
    ensures forall row :: row in r <==> exists l :: l in st.loans && ListRow(st, l, query, today) == Some(row)
    ensures forall row :: row in r ==> (
              && row.status == Active
              && (row.isLate <==> row.dueDate < today)
              && (row.isLate ==> row.daysLate == Some(today - row.dueDate) && today - row.dueDate >= 1)
              && (!row.isLate ==> row.daysLate.None?))
  {
    IntAscending(DueFirst, LoanRowDue);
    var f := (l: Loan) => ListRow(st, l, query, today);
    ListingKeys(st.loans, f, DueFirst, LoanRowKey);
    ListingMembers(st.loans, f, DueFirst);
    ListingAll(st.loans, f, DueFirst, (row: LoanRow) => LateShown(row, today));
    ListRowKeys(st, query, today, f);
    var r := SortBy(FilterMap(st.loans, f), DueFirst);
    assert Keyed(st) ==> UniqueKeys(r, LoanRowKey) by {
      if Keyed(st) {
        ListingUniqueKeys(st.loans, f, LoanKey, LoanRowKey, DueFirst);
      }
    }
    r
  }

  /**
   * For a query free of LIKE metacharacters, an active loan is listed exactly
   * when the query occurs, ignoring case, in the book name, the reader name or
   * the asset number's decimal text.
   */
  lemma LoanSearchIsSubstring(st: Store, query: string, today: Day, l: Loan)
    requires Keyed(st) && l in st.loans && IsActive(l) && Join(st, l).Some?
    requires query != "" && NoMeta(query)
    ensures l.id in KeySet(ListActiveLoans(st, query, today), LoanRowKey) <==> (
              var j := Join(st, l).value;
              || IsSubstring(Lower(query), Lower(j.book.name))
              || IsSubstring(Lower(query), Lower(j.reader.name))
              || IsSubstring(Lower(query), Lower(IntText(j.copy.asset))))
  {
    var j := Join(st, l).value;
    ContainsIsSubstring(j.book.name, query);
    ContainsIsSubstring(j.reader.name, query);
    ContainsIsSubstring(IntText(j.copy.asset), query);
    if l.id in ListedLoanIds(st, query) {
      var other :| other in st.loans && IsActive(other) && Join(st, other).Some?
                   && (query == "" || SearchHit(Join(st, other).value, query)) && other.id == l.id;
      FindUnique(st.loans, LoanKey, other);
      FindUnique(st.loans, LoanKey, l);
    }
  }

  /** The list and the return screen judge lateness the same way. */
  lemma LatenessAgrees(st: Store, l: Loan, query: string, today: Day)
    requires ListRow(st, l, query, today).Some?
    ensures ListRow(st, l, query, today).value.isLate == ReturnLateness(l.dueDate, today).isLate
    ensures ListRow(st, l, query, today).value.isLate ==>
              ListRow(st, l, query, today).value.daysLate == Some(ReturnLateness(l.dueDate, today).daysShown)
  {
  }

  /** Without a query, the list holds every active loan of a consistent store. */
  lemma EmptyQueryListsAllActive(st: Store, today: Day)
    requires Keyed(st)
    ensures KeySet(ListActiveLoans(st, "", today), LoanRowKey) == set l | l in st.loans && IsActive(l) :: l.id
  {
    forall l | l in st.loans && IsActive(l)
      ensures l.id in ListedLoanIds(st, "")
    {
      JoinTotal(st, l);
    }
  }

  // ----- The one-active-loan-per-copy rule ------------------------------------

  /**
   * Appending a loan under the next id, on an available copy and for an
   * existing reader, takes a fresh id and keeps a consistent store consistent.
   */
  lemma AppendLoanKeepsWellFormed(st: Store, l: Loan)
    requires l.id == st.nextLoanId
    requires l.copyId in AvailableCopyIds(st) && l.readerId in ReaderIds(st)
    ensures Keyed(st) ==> l.id !in LoanIds(st)
    ensures WellFormed(st) ==> WellFormed(st.(loans := st.loans + [l], nextLoanId := st.nextLoanId + 1))
  {
    if WellFormed(st) {
      var s2 := st.(loans := st.loans + [l], nextLoanId := st.nextLoanId + 1);
      assert l.copyId in CopyIds(st);
      assert l.id !in KeySet(st.loans, LoanKey);
      AppendKeepsUnique(st.loans, l, LoanKey);
      AppendActiveKeepsOne(st, l);
      assert forall x :: x in s2.loans ==> x in st.loans || x == l;
    }
  }

  /** A loan on a copy no active loan holds keeps the one-active-loan rule. */
  lemma AppendActiveKeepsOne(st: Store, l: Loan)
    requires AtMostOneActivePerCopy(st.loans)
    requires l.copyId !in ActiveCopyIds(st)
    ensures AtMostOneActivePerCopy(st.loans + [l])
  {
    var s := st.loans + [l];
    forall i, j | 0 <= i < j < |s| && IsActive(s[i]) && IsActive(s[j])
      ensures s[i].copyId != s[j].copyId
    {
      assert s[i] == st.loans[i] && st.loans[i] in st.loans;
    }
  }

  /**
   * Rewriting loans in place, keeping their ids, copies and readers and making
   * none active, keeps a consistent store consistent.
   */
  lemma RewriteLoansKeepsWellFormed(st: Store, loans: seq<Loan>)
    requires |loans| == |st.loans|
    requires forall i :: 0 <= i < |loans| ==> (
               && loans[i].id == st.loans[i].id
               && loans[i].copyId == st.loans[i].copyId
               && loans[i].readerId == st.loans[i].readerId
               && (IsActive(loans[i]) ==> IsActive(st.loans[i])))
    ensures WellFormed(st) ==> WellFormed(st.(loans := loans))
  {
    if WellFormed(st) {
      var s2 := st.(loans := loans);
      forall x | x in loans
        ensures x.id < s2.nextLoanId && x.copyId in CopyIds(s2) && x.readerId in ReaderIds(s2)
      {
        var i :| 0 <= i < |loans| && loans[i] == x;
        assert st.loans[i] in st.loans;
      }
    }
  }

  predicate DistinctIds(a: Loan, b: Loan)
  {
    a.id != b.id
  }

  predicate NotBothActiveOnOneCopy(a: Loan, b: Loan)
  {
    IsActive(a) && IsActive(b) ==> a.copyId != b.copyId
  }

  /** Deleting a loan keeps the store consistent: the remaining rows keep their order. */
  lemma DeleteLoanPreservesWellFormed(st: Store, loanId: Id)
    requires WellFormed(st)
    ensures WellFormed(DeleteLoan(st, loanId).store)
  {
    var s2 := DeleteLoan(st, loanId).store;
    var p := (l: Loan) => Other(loanId, l);
    assert s2.loans == Filter(st.loans, p);
    FilterKeepsPairwise(st.loans, p, DistinctIds);
    FilterKeepsPairwise(st.loans, p, NotBothActiveOnOneCopy);
    assert UniqueKeys(s2.loans, LoanKey);
    assert AtMostOneActivePerCopy(s2.loans);
  }

  /** After a delete, a copy with no other active loan is offered again. */
  lemma DeleteFreesCopy(st: Store, loanId: Id, c: Copy)
    requires c in st.copies && c.bookId in BookIds(st)
    requires forall m :: m in st.loans && m.id != loanId && IsActive(m) ==> m.copyId != c.id
    ensures c.id in AvailableCopyIds(DeleteLoan(st, loanId).store)
  {
  }

  /** In a consistent store, deleting a copy's active loan makes that copy available. */
  lemma DeleteActiveLoanFreesItsCopy(st: Store, l: Loan)
    requires WellFormed(st)
    requires l in st.loans && IsActive(l)
    ensures l.copyId in AvailableCopyIds(DeleteLoan(st, l.id).store)
  {
    var c := FindCopy(st, l.copyId).value;
    assert c.bookId in BookIds(st);
    forall m | m in st.loans && m.id != l.id && IsActive(m)
      ensures m.copyId != c.id
    {
      var i :| 0 <= i < |st.loans| && st.loans[i] == m;
      var j :| 0 <= j < |st.loans| && st.loans[j] == l;
      if i < j {
        assert st.loans[i].copyId != st.loans[j].copyId;
      } else if j < i {
        assert st.loans[j].copyId != st.loans[i].copyId;
      }
    }
    DeleteFreesCopy(st, l.id, c);
  }

  /** A loan already returned can be returned again: the update is applied once more. */
  lemma ReturnTwice(st: Store, l: Loan, today: Day, fine: Option<Cents>, note: string)
    requires Keyed(st)
    requires l in st.loans && l.status == Returned
    requires CleanFine(ReturnLateness(l.dueDate, today).isLate, fine).Accepted?
    ensures ReturnLoan(st, l.id, today, fine, note).outcome == Done
    ensures Close(l, today, fine.GetOr(0), note) in ReturnLoan(st, l.id, today, fine, note).store.loans
  {
    FindUnique(st.loans, LoanKey, l);
    assert FindLoan(st, l.id) == Some(l);
    JoinTotal(st, l);
    var v := ShowReturn(st, l.id, today);
    assert v.Some? && v.value.loan.loan == l;
    assert v.value.lateness.isLate == ReturnLateness(l.dueDate, today).isLate;
    var r := ReturnLoan(st, l.id, today, fine, note);
    assert r.outcome == Done;
    var i :| 0 <= i < |st.loans| && st.loans[i] == l;
    assert r.store.loans[i] == Close(l, today, fine.GetOr(0), note);
  }
}

=== FILE: maybe.dfy ===
/** Optional values: a SQL NULL, a lookup that found no row, a blank form field. */
module Maybe {

  datatype Option<+T> = None | Some(value: T) {

    /** The wrapped value, or `default` when there is none (Python's `x or default`). */
    function GetOr(default: T): T
    {
      match this
      case Some(v) => v
      case None => default
    }
  }
}

=== FILE: reports.dfy ===
/**
 * The reports (relatorios): overdue loans with their days late, all borrowed
 * books with a late flag and their authors, and the loan history of one book.
 */
module Reports {
  import opened Maybe
  import opened Seqs
  import opened Text
  import opened Schema
  import opened Availability
  import opened Catalog
  import opened Loans

  // ----- Overdue loans ------------------------------------------------------

  /** One overdue line; `daysLate` is `CURRENT_DATE - dt_prevista_devolucao`. */
  datatype OverdueRow = OverdueRow(
    loanId: Id,
    readerName: string,
    readerPhone: string,
    bookName: string,
    asset: int,
    dueDate: Day,
    daysLate: int)

  function OverdueRowKey(r: OverdueRow): Id { r.loanId }
  function OverdueRowDays(r: OverdueRow): int { r.daysLate }

  predicate MostLateFirst(a: OverdueRow, b: OverdueRow)
  {
    a.daysLate >= b.daysLate
  }

  /** Active, joined loans whose due date is before today. */
  function OverdueIds(st: Store, today: Day): set<Id>
  {
    set l | l in st.loans && IsActive(l) && Join(st, l).Some? && l.dueDate < today :: l.id
  }

  function OverdueRowOf(st: Store, today: Day, l: Loan): Option<OverdueRow>
  {
    if !IsActive(l) || !(l.dueDate < today) then None
    else
      match Join(st, l)
      case None => None
      case Some(j) =>
        Some(OverdueRow(l.id, j.reader.name, j.reader.phone, j.book.name, j.copy.asset, l.dueDate, today - l.dueDate))
  }

  lemma OverdueRowKeys(st: Store, today: Day, f: Loan -> Option<OverdueRow>)
    requires forall l :: f(l) == OverdueRowOf(st, today, l)
    ensures forall k ::
              (exists l :: l in st.loans && f(l).Some? && OverdueRowKey(f(l).value) == k)
              <==> k in OverdueIds(st, today)
  {
    forall k | k in OverdueIds(st, today)
      ensures exists l :: l in st.loans && f(l).Some? && OverdueRowKey(f(l).value) == k
    {
      var l :| l in st.loans && IsActive(l) && Join(st, l).Some? && l.dueDate < today && l.id == k;
      assert f(l).Some?;
    }
  }

  /** An overdue line's days late is the days since its due date, at least one. */
  predicate DaysLateShown(row: OverdueRow, today: Day)
  {
    row.daysLate == today - row.dueDate && row.daysLate >= 1
  }

  /** The overdue report: the active loans past their due date, most days late first. */
  function Overdue(st: Store, today: Day): (r: seq<OverdueRow>)
    ensures SortedBy(r, MostLateFirst)
    ensures KeySet(r, OverdueRowKey) == OverdueIds(st, today)
    ensures Keyed(st) ==> UniqueKeys(r, OverdueRowKey)
    ensures forall row :: row in r ==> row.daysLate == today - row.dueDate && row.daysLate >= 1
    ensures forall row :: row in r <==> exists l :: l in st.loans && OverdueRowOf(st, today, l) == Some(row)
  {
    IntDescending(MostLateFirst, OverdueRowDays);
    var f := (l: Loan) => OverdueRowOf(st, today, l);
    ListingAll(st.loans, f, MostLateFirst, (row: OverdueRow) => DaysLateShown(row, today));
    ListingKeys(st.loans, f, MostLateFirst, OverdueRowKey);
    OverdueRowKeys(st, today, f);
    var r := SortBy(FilterMap(st.loans, f), MostLateFirst);
    ListingMembers(st.loans, f, MostLateFirst);
    assert Keyed(st) ==> UniqueKeys(r, OverdueRowKey) by {
      if Keyed(st) {
        ListingUniqueKeys(st.loans, f, LoanKey, OverdueRowKey, MostLateFirst);
      }
    }
    r
  }

  /** In a consistent store the overdue report holds exactly the active loans past due. */
  lemma OverdueExactlyLateActive(st: Store, today: Day, l: Loan)
    requires Keyed(st) && l in st.loans
    ensures l.id in KeySet(Overdue(st, today), OverdueRowKey) <==> IsActive(l) && l.dueDate < today
  {
    JoinTotal(st, l);
    if l.id in OverdueIds(st, today) {
      var m :| m in st.loans && IsActive(m) && Join(st, m).Some? && m.dueDate < today && m.id == l.id;
      FindUnique(st.loans, LoanKey, m);
      FindUnique(st.loans, LoanKey, l);
    }
  }

  /** The overdue report and the loan list's late flags pick the same loans. */
  lemma OverdueMatchesLateFlags(st: Store, today: Day)
    requires Keyed(st)
    ensures KeySet(Overdue(st, today), OverdueRowKey)
            == set row | row in ListActiveLoans(st, "", today) && row.isLate :: row.loanId
  {
    var rows := ListActiveLoans(st, "", today);
    var late := set row | row in rows && row.isLate :: row.loanId;
    forall k | k in OverdueIds(st, today) ensures k in late {
      var l :| l in st.loans && IsActive(l) && Join(st, l).Some? && l.dueDate < today && l.id == k;
      LateRowIffOverdue(st, l, today);
      assert ListRow(st, l, "", today).value in rows;
    }
    forall k | k in late ensures k in OverdueIds(st, today) {
      var row :| row in rows && row.isLate && row.loanId == k;
      var l :| l in st.loans && ListRow(st, l, "", today) == Some(row);
      LateRowIffOverdue(st, l, today);
    }
    assert late == OverdueIds(st, today);
  }

  /** A loan shows as a late line of the unfiltered list iff it is active, joined and past due. */
  lemma LateRowIffOverdue(st: Store, l: Loan, today: Day)
    ensures (ListRow(st, l, "", today).Some? && ListRow(st, l, "", today).value.isLate) <==>
            (IsActive(l) && Join(st, l).Some? && l.dueDate < today)
    ensures ListRow(st, l, "", today).Some? ==> ListRow(st, l, "", today).value.loanId == l.id
  {
  }

  // ----- Borrowed books -----------------------------------------------------

  /** One borrowed-book line with its late flag and its sorted author names. */
  datatype BorrowedRow = BorrowedRow(
    loanId: Id,
    bookId: Id,
    bookName: string,
    asset: int,
    readerName: string,
    loanDate: Day,
    dueDate: Day,
    isLate: bool,
    authors: seq<string>)

  function BorrowedRowKey(r: BorrowedRow): Id { r.loanId }
  function BorrowedRowDue(r: BorrowedRow): int { r.dueDate }

  predicate EarliestDueFirst(a: BorrowedRow, b: BorrowedRow)
  {
    a.dueDate <= b.dueDate
  }

  function BorrowedRowOf(st: Store, today: Day, l: Loan): Option<BorrowedRow>
  {
    if !IsActive(l) then None
    else
      match Join(st, l)
      case None => None
      case Some(j) =>
        Some(BorrowedRow(l.id, j.book.id, j.book.name, j.copy.asset, j.reader.name, l.loanDate, l.dueDate,
                         l.dueDate < today, AuthorNames(st, j.book.id)))
  }

  lemma BorrowedRowKeys(st: Store, today: Day, f: Loan -> Option<BorrowedRow>)
    requires forall l :: f(l) == BorrowedRowOf(st, today, l)
    ensures forall k ::
              (exists l :: l in st.loans && f(l).Some? && BorrowedRowKey(f(l).value) == k)
              <==> k in ActiveLoanIds(st)
  {
    forall k | k in ActiveLoanIds(st)
      ensures exists l :: l in st.loans && f(l).Some? && BorrowedRowKey(f(l).value) == k
    {
      var l :| l in st.loans && IsActive(l) && Join(st, l).Some? && l.id == k;
      assert f(l).Some?;
    }
  }

  /** A borrowed line is late iff its due date has passed and shows its book's author names. */
  predicate BorrowedShown(st: Store, row: BorrowedRow, today: Day)
  {
    (row.isLate <==> row.dueDate < today) && row.authors == AuthorNames(st, row.bookId)
  }

  /**
   * The borrowed-books report: every active loan, earliest due date first,
   * flagged late when the due date has passed, with the book's authors.
   */
  function Borrowed(st: Store, today: Day): (r: seq<BorrowedRow>)
    ensures SortedBy(r, EarliestDueFirst)
    ensures KeySet(r, BorrowedRowKey) == ActiveLoanIds(st)
    ensures Keyed(st) ==> UniqueKeys(r, BorrowedRowKey)
    ensures forall row :: row in r ==> (
              && (row.isLate <==> row.dueDate < today)
              && row.authors == AuthorNames(st, row.bookId))
    ensures forall row :: row in r <==> exists l :: l in st.loans && BorrowedRowOf(st, today, l) == Some(row)
  {
    IntAscending(EarliestDueFirst, BorrowedRowDue);
    var f := (l: Loan) => BorrowedRowOf(st, today, l);
    ListingAll(st.loans, f, EarliestDueFirst, (row: BorrowedRow) => BorrowedShown(st, row, today));
    ListingKeys(st.loans, f, EarliestDueFirst, BorrowedRowKey);
    BorrowedRowKeys(st, today, f);
    var r := SortBy(FilterMap(st.loans, f), EarliestDueFirst);
    ListingMembers(st.loans, f, EarliestDueFirst);
    assert Keyed(st) ==> UniqueKeys(r, BorrowedRowKey) by {
      if Keyed(st) {
        ListingUniqueKeys(st.loans, f, LoanKey, BorrowedRowKey, EarliestDueFirst);
      }
    }
    r
  }

  /** In a consistent store the borrowed-books report holds exactly the active loans. */
  lemma BorrowedExactlyActive(st: Store, today: Day)
    requires Keyed(st)
    ensures KeySet(Borrowed(st, today), BorrowedRowKey) == set l | l in st.loans && IsActive(l) :: l.id
  {
    forall l | l in st.loans && IsActive(l)
      ensures l.id in ActiveLoanIds(st)
    {
      JoinTotal(st, l);
    }
  }

  // ----- A book's loan history ----------------------------------------------

  /** One history line: the copy, the reader, the dates and the status, of any status. */
  datatype HistoryRow = HistoryRow(
    loanId: Id,
    asset: int,
    readerName: string,
    loanDate: Day,
    returnDate: Option<Day>,
    status: LoanStatus)

  function HistoryRowKey(r: HistoryRow): Id { r.loanId }
  function HistoryRowDate(r: HistoryRow): int { r.loanDate }

  predicate LatestLoanFirst(a: HistoryRow, b: HistoryRow)
  {
    a.loanDate >= b.loanDate
  }

  /** `Emprestimo JOIN Exemplar JOIN Leitor WHERE e.id_livro = b`, for one loan. */
  function HistoryRowOf(st: Store, b: Id, l: Loan): Option<HistoryRow>
  {
    match FindCopy(st, l.copyId)
    case None => None
    case Some(c) =>
      if c.bookId != b then None
      else
        match FindReader(st, l.readerId)
        case None => None
        case Some(rd) => Some(HistoryRow(l.id, c.asset, rd.name, l.loanDate, l.returnDate, l.status))
  }

  /** The loans, of any status, whose copy is a copy of book `b`. */
  function LoansOfBook(st: Store, b: Id): set<Id>
  {
    set l | l in st.loans && l.copyId in CopyIdsOf(st, b) :: l.id
  }

  lemma HistoryRowKeys(st: Store, b: Id, f: Loan -> Option<HistoryRow>)
    requires Keyed(st)
    requires forall l :: f(l) == HistoryRowOf(st, b, l)
    ensures forall k ::
              (exists l :: l in st.loans && f(l).Some? && HistoryRowKey(f(l).value) == k)
              <==> k in LoansOfBook(st, b)
  {
    forall l | l in st.loans
      ensures f(l).Some? <==> l.copyId in CopyIdsOf(st, b)
    {
      var c := FindCopy(st, l.copyId).value;
      if l.copyId in CopyIdsOf(st, b) {
        var c2 :| c2 in st.copies && c2.bookId == b && c2.id == l.copyId;
        FindUnique(st.copies, CopyKey, c2);
      }
    }
  }

  /**
   * The history of book `b`: the loans of all its copies, of any status, the
   * most recent loan date first.
   */
  function History(st: Store, b: Id): (r: seq<HistoryRow>)
    ensures SortedBy(r, LatestLoanFirst)
    ensures Keyed(st) ==> KeySet(r, HistoryRowKey) == LoansOfBook(st, b)
    ensures Keyed(st) ==> UniqueKeys(r, HistoryRowKey)
    ensures forall row :: row in r ==> exists l :: l in st.loans && l.id == row.loanId && l.status == row.status
                                                   && l.loanDate == row.loanDate && l.returnDate == row.returnDate
    ensures forall row :: row in r <==> exists l :: l in st.loans && HistoryRowOf(st, b, l) == Some(row)
  {
    IntDescending(LatestLoanFirst, HistoryRowDate);
    var f := (l: Loan) => HistoryRowOf(st, b, l);
    ListingMembers(st.loans, f, LatestLoanFirst);
    var r := SortBy(FilterMap(st.loans, f), LatestLoanFirst);
    assert Keyed(st) ==> KeySet(r, HistoryRowKey) == LoansOfBook(st, b) && UniqueKeys(r, HistoryRowKey) by {
      if Keyed(st) {
        ListingKeys(st.loans, f, LatestLoanFirst, HistoryRowKey);
        HistoryRowKeys(st, b, f);
        ListingUniqueKeys(st.loans, f, LoanKey, HistoryRowKey, LatestLoanFirst);
      }
    }
    r
  }

  /** The loan ids of the history's active lines. */
  function ActiveLines(st: Store, b: Id): set<Id>
  {
    set row | row in History(st, b) && row.status == Active :: row.loanId
  }

  /** The ids of the active loans on the book's copies. */
  function ActiveLoanIdsOf(st: Store, b: Id): set<Id>
  {
    set l | l in st.loans && IsActive(l) && l.copyId in CopyIdsOf(st, b) :: l.id
  }

  /** Two loan rows with one id are the same row. */
  lemma SameLoan(st: Store, l: Loan, m: Loan)
    requires UniqueKeys(st.loans, LoanKey)
    requires l in st.loans && m in st.loans && l.id == m.id
    ensures l == m
  {
    FindUnique(st.loans, LoanKey, m);
    FindUnique(st.loans, LoanKey, l);
  }

  lemma ActiveLinesAreActiveLoans(st: Store, b: Id)
    requires Keyed(st)
    ensures ActiveLines(st, b) <= ActiveLoanIdsOf(st, b)
  {
    var rows := History(st, b);
    forall k | k in ActiveLines(st, b) ensures k in ActiveLoanIdsOf(st, b) {
      var row :| row in rows && row.status == Active && row.loanId == k;
      var l :| l in st.loans && l.id == row.loanId && l.status == row.status
               && l.loanDate == row.loanDate && l.returnDate == row.returnDate;
      assert k in LoansOfBook(st, b);
      var m :| m in st.loans && m.copyId in CopyIdsOf(st, b) && m.id == k;
      SameLoan(st, l, m);
    }
  }

  lemma ActiveLoansAreActiveLines(st: Store, b: Id)
    requires Keyed(st)
    ensures ActiveLoanIdsOf(st, b) <= ActiveLines(st, b)
  {
    var rows := History(st, b);
    forall k | k in ActiveLoanIdsOf(st, b) ensures k in ActiveLines(st, b) {
      var l :| l in st.loans && IsActive(l) && l.copyId in CopyIdsOf(st, b) && l.id == k;
      assert k in KeySet(rows, HistoryRowKey);
      var row :| row in rows && row.loanId == k;
      var m :| m in st.loans && m.id == row.loanId && m.status == row.status
               && m.loanDate == row.loanDate && m.returnDate == row.returnDate;
      SameLoan(st, l, m);
    }
  }

  /** The history's active lines are the loans the book's availability counts. */
  lemma HistoryActiveLinesAreLoaned(st: Store, b: Id)
    requires WellFormed(st)
    ensures |set row | row in History(st, b) && row.status == Active :: row.loanId| == LoanedCount(st, b)
  {
    ActiveLinesAreActiveLoans(st, b);
    ActiveLoansAreActiveLines(st, b);
    assert ActiveLines(st, b) == ActiveLoanIdsOf(st, b);
    ActiveLoansCountIds(st, b);
  }

  /** With unique loan ids, the count of the book's active loans is the count of their ids. */
  lemma ActiveLoansCountIds(st: Store, b: Id)
    requires UniqueKeys(st.loans, LoanKey)
    ensures LoanedCount(st, b) == |set l | l in st.loans && IsActive(l) && l.copyId in CopyIdsOf(st, b) :: l.id|
  {
    var q := (l: Loan) => IsActive(l) && l.copyId in CopyIdsOf(st, b);
    FilterSamePredicate(st.loans, q, (l: Loan) => IsActive(l) && l.copyId in CopyIdsOf(st, b));
    var ls := Filter(st.loans, q);
    assert ls == ActiveLoansOf(st, b);
    forall i, j | 0 <= i < j < |st.loans| && q(st.loans[i]) && q(st.loans[j])
      ensures LoanKey(st.loans[i]) != LoanKey(st.loans[j])
    {
    }
    FilterKeyCard(st.loans, q, LoanKey);
    assert KeySet(ls, LoanKey) == set l | l in st.loans && IsActive(l) && l.copyId in CopyIdsOf(st, b) :: l.id;
  }

  // ----- The history screen ---------------------------------------------------

  /** The history screen: every book for the select box, and the chosen book's history. */
  datatype HistoryScreen = HistoryScreen(books: seq<Book>, chosen: Option<Book>, rows: seq<HistoryRow>)

  predicate BookByName(a: Book, b: Book)
  {
    StrLe(a.name, b.name)
  }

  function BookName(b: Book): string { b.name }

  /** With no book chosen the screen shows only the select box. */
  function ShowHistory(st: Store, selected: Option<Id>): (r: HistoryScreen)
    ensures SortedBy(r.books, BookByName)
    ensures multiset(r.books) == multiset(st.books)
    ensures KeySet(r.books, BookKey) == BookIds(st)
    ensures selected.None? ==> r.chosen.None? && r.rows == []
    ensures selected.Some? ==> (
              && (r.chosen.Some? <==> selected.value in BookIds(st))
              && (r.chosen.Some? ==> r.chosen.value in st.books && r.chosen.value.id == selected.value)
              && r.rows == History(st, selected.value))
  {
    StrKeyPreorder(BookByName, BookName);
    var books := SortBy(st.books, BookByName);
    SortByMembers(st.books, BookByName);
    match selected
    case None => HistoryScreen(books, None, [])
    case Some(b) => HistoryScreen(books, Find(books, BookKey, b), History(st, b))
  }
}

=== FILE: schema.dfy ===
/**
 * The library's tables (Livro, Autor, autor_livro, Exemplar, Leitor,
 * Emprestimo) as one immutable store, the referential rules the database
 * enforces, and the outcome of a request that changes the store.
 */
module Schema {
  import opened Maybe
  import opened Seqs

  type Id = nat

  /** A calendar date, as a day number. */
  type Day = int

  /** An amount of money in cents (R$ 1,00 is 100). */
  type Cents = int

  /** Livro. `nominalCopies` is the typed-in `qtde_exemplares`, never used for availability. */
  datatype Book = Book(id: Id, name: string, genre: string, isbn: string, nominalCopies: int, status: string)

  /** Autor. */
  datatype Author = Author(id: Id, name: string)

  /** Exemplar: one physical copy of a book, identified on the shelf by its asset number. */
  datatype Copy = Copy(id: Id, bookId: Id, asset: int)

  /** Leitor. */
  datatype Reader = Reader(id: Id, name: string, phone: string)

  /** The loan status column: `Active` is stored as 'Em Andamento', `Returned` as 'Devolvido'. */
  datatype LoanStatus = Active | Returned

  /** Emprestimo. The return date, fine and note stay NULL until the return. */
  datatype Loan = Loan(
    id: Id,
    copyId: Id,
    readerId: Id,
    staffId: Id,
    loanDate: Day,
    dueDate: Day,
    status: LoanStatus,
    returnDate: Option<Day>,
    fine: Option<Cents>,
    note: Option<string>)

  /**
   * All tables. `bookAuthors` holds the (book id, author id) rows of autor_livro;
   * `nextBookId` and `nextLoanId` are the serial counters that hand out new ids.
   */
  datatype Store = Store(
    books: seq<Book>,
    authors: seq<Author>,
    bookAuthors: set<(Id, Id)>,
    copies: seq<Copy>,
    readers: seq<Reader>,
    loans: seq<Loan>,
    nextBookId: Id,
    nextLoanId: Id)

  /** Why a request left the store as it was (or, for a book delete, half-changed). */
  datatype Error =
    | InvalidForm      // a form field failed validation
    | SessionExpired   // no staff member is logged in
    | NotFound         // the id names no row
    | HasCopies        // the database refused to delete a book that still has copies
    | FineRequired     // a late return without a fine
    | FineTooSmall     // a late return with a fine under R$ 0,01
    | FineTooLarge     // a fine with more than 10 digits

  datatype Outcome = Done | Failed(error: Error)

  /** The store after a request, and whether the request succeeded. */
  datatype Step = Step(store: Store, outcome: Outcome)

  function BookKey(b: Book): Id { b.id }
  function AuthorKey(a: Author): Id { a.id }
  function CopyKey(c: Copy): Id { c.id }
  function ReaderKey(r: Reader): Id { r.id }
  function LoanKey(l: Loan): Id { l.id }

  function BookIds(st: Store): set<Id> { KeySet(st.books, BookKey) }
  function AuthorIds(st: Store): set<Id> { KeySet(st.authors, AuthorKey) }
  function CopyIds(st: Store): set<Id> { KeySet(st.copies, CopyKey) }
  function ReaderIds(st: Store): set<Id> { KeySet(st.readers, ReaderKey) }
  function LoanIds(st: Store): set<Id> { KeySet(st.loans, LoanKey) }

  function FindBook(st: Store, id: Id): Option<Book> { Find(st.books, BookKey, id) }
  function FindCopy(st: Store, id: Id): Option<Copy> { Find(st.copies, CopyKey, id) }
  function FindReader(st: Store, id: Id): Option<Reader> { Find(st.readers, ReaderKey, id) }
  function FindLoan(st: Store, id: Id): Option<Loan> { Find(st.loans, LoanKey, id) }

  predicate IsActive(l: Loan)
  {
    l.status == Active
  }

  /** Copies referenced by some 'Em Andamento' loan. */
  function ActiveCopyIds(st: Store): set<Id>
  {
    set l | l in st.loans && IsActive(l) :: l.copyId
  }

  /** The intended rule: no copy is on two active loans at once. */
  predicate AtMostOneActivePerCopy(loans: seq<Loan>)
  {
    forall i, j :: 0 <= i < j < |loans| && IsActive(loans[i]) && IsActive(loans[j]) ==>
      loans[i].copyId != loans[j].copyId
  }

  /** Primary keys, serial counters and foreign keys as the database keeps them. */
  predicate Keyed(st: Store)
  {
    && UniqueKeys(st.books, BookKey)
    && UniqueKeys(st.authors, AuthorKey)
    && UniqueKeys(st.copies, CopyKey)
    && UniqueKeys(st.readers, ReaderKey)
    && UniqueKeys(st.loans, LoanKey)
    && (forall b :: b in st.books ==> b.id < st.nextBookId)
    && (forall l :: l in st.loans ==> l.id < st.nextLoanId)
    && (forall c :: c in st.copies ==> c.bookId in BookIds(st))
    && (forall l :: l in st.loans ==> l.copyId in CopyIds(st) && l.readerId in ReaderIds(st))
    && (forall p :: p in st.bookAuthors ==> p.0 in BookIds(st) && p.1 in AuthorIds(st))
  }

  /** A consistent store: database keys plus the one-active-loan-per-copy rule. */
  predicate WellFormed(st: Store)
  {
    Keyed(st) && AtMostOneActivePerCopy(st.loans)
  }
}

=== FILE: seqs.dfy ===
/**
 * Sequence utilities shared by every listing of the library: filtering (a SQL
 * WHERE), projecting through a partial join, looking a row up by key, and
 * sorting by a total preorder (a SQL ORDER BY whose tie order is unspecified).
 */
module Seqs {
  import opened Maybe

  /** `le` is total and transitive: a legal ORDER BY key comparison. */
  ghost predicate TotalPreorder<T(!new)>(le: (T, T) -> bool)
  {
    && (forall a, b :: le(a, b) || le(b, a))
    && (forall a, b, c :: le(a, b) && le(b, c) ==> le(a, c))
  }

  predicate SortedBy<T>(s: seq<T>, le: (T, T) -> bool)
  {
    forall i, j :: 0 <= i < j < |s| ==> le(s[i], s[j])
  }

  /** The rows of `s` that satisfy `p`, in their original order. */
  function Filter<T(!new)>(s: seq<T>, p: T -> bool): (r: seq<T>)
    ensures forall x :: x in r <==> x in s && p(x)
    ensures |r| <= |s|
  {
    if |s| == 0 then []
    else (if p(s[0]) then [s[0]] else []) + Filter(s[1..], p)
  }

  /** Filtering with a condition every row meets changes nothing. */
  lemma {:induction false} FilterKeepsAll<T(!new)>(s: seq<T>, p: T -> bool)
    ensures (forall x :: x in s ==> p(x)) ==> Filter(s, p) == s
  {
    if |s| > 0 && forall x :: x in s ==> p(x) {
      assert forall x :: x in s[1..] ==> x in s;
      FilterKeepsAll(s[1..], p);
      assert s == [s[0]] + s[1..];
    }
  }

  /** Filtering depends only on the values of the predicate. */
  lemma {:induction false} FilterSamePredicate<T(!new)>(s: seq<T>, p: T -> bool, q: T -> bool)
    requires forall x :: p(x) == q(x)
    ensures Filter(s, p) == Filter(s, q)
  {
    if |s| > 0 {
      FilterSamePredicate(s[1..], p, q);
    }
  }

  /** A relation that holds between every earlier and later row still holds after filtering. */
  lemma {:induction false} FilterKeepsPairwise<T(!new)>(s: seq<T>, p: T -> bool, rel: (T, T) -> bool)
    requires forall i, j :: 0 <= i < j < |s| ==> rel(s[i], s[j])
    ensures forall i, j :: 0 <= i < j < |Filter(s, p)| ==> rel(Filter(s, p)[i], Filter(s, p)[j])
  {
    if |s| > 0 {
      var tail := s[1..];
      assert forall i, j :: 0 <= i < j < |tail| ==> tail[i] == s[i + 1] && tail[j] == s[j + 1];
      FilterKeepsPairwise(tail, p, rel);
      var rest := Filter(tail, p);
      assert forall y :: y in rest ==> rel(s[0], y) by {
        forall y | y in rest ensures rel(s[0], y) {
          var k :| 0 <= k < |tail| && tail[k] == y;
          assert s[k + 1] == y;
        }
      }
      if p(s[0]) {
        var r := [s[0]] + rest;
        assert Filter(s, p) == r;
        forall i, j | 0 <= i < j < |r| ensures rel(r[i], r[j]) {
          assert r[j] == rest[j - 1];
          if i > 0 {
            assert r[i] == rest[i - 1];
          }
        }
      } else {
        assert Filter(s, p) == rest;
      }
    }
  }

  /** The images of the rows of `s` on which the partial map `f` is defined. */
  function FilterMap<A(!new), B(!new)>(s: seq<A>, f: A -> Option<B>): (r: seq<B>)
    ensures forall b :: b in r <==> exists a :: a in s && f(a) == Some(b)
    ensures |r| <= |s|
  {
    if |s| == 0 then []
    else
      var rest := FilterMap(s[1..], f);
      assert forall a :: a in s[1..] ==> a in s;
      assert forall a :: a in s ==> a == s[0] || a in s[1..];
      (if f(s[0]).Some? then [f(s[0]).value] else []) + rest
  }

  /** The keys of all rows of `s`. */
  function KeySet<T(==), K(==)>(s: seq<T>, key: T -> K): set<K>
  {
    set x | x in s :: key(x)
  }

  /** No two rows of `s` share a key. */
  predicate UniqueKeys<T, K(==)>(s: seq<T>, key: T -> K)
  {
    forall i, j :: 0 <= i < j < |s| ==> key(s[i]) != key(s[j])
  }

  /** Appending a row with a new key keeps the keys unique. */
  lemma AppendKeepsUnique<T, K>(s: seq<T>, x: T, key: T -> K)
    requires UniqueKeys(s, key)
    requires key(x) !in KeySet(s, key)
    ensures UniqueKeys(s + [x], key)
  {
    forall i, j | 0 <= i < j < |s + [x]|
      ensures key((s + [x])[i]) != key((s + [x])[j])
    {
      assert (s + [x])[i] == s[i];
      if j == |s| {
        assert s[i] in s;
      }
    }
  }

  /** The first row of `s` whose key is `k`, if any (a lookup by primary key). */
  function Find<T(==), K(==)>(s: seq<T>, key: T -> K, k: K): (r: Option<T>)
    ensures r.Some? ==> r.value in s && key(r.value) == k
    ensures r.None? <==> k !in KeySet(s, key)
  {
    if |s| == 0 then None
    else if key(s[0]) == k then Some(s[0])
    else
      assert forall x :: x in s ==> x == s[0] || x in s[1..];
      Find(s[1..], key, k)
  }

  /** With unique keys, the row found for a key is the only row with that key. */
  lemma FindUnique<T, K>(s: seq<T>, key: T -> K, x: T)
    requires UniqueKeys(s, key)
    requires x in s
    ensures Find(s, key, key(x)) == Some(x)
  {
    var r := Find(s, key, key(x));
    assert key(x) in KeySet(s, key);
    var i :| 0 <= i < |s| && s[i] == r.value;
    var j :| 0 <= j < |s| && s[j] == x;
    if i < j {
      assert key(s[i]) != key(s[j]);
    } else if j < i {
      assert key(s[j]) != key(s[i]);
    }
  }

  /**
   * When no two rows selected by `p` share a key, the filtered rows have as
   * many distinct keys as there are rows.
   */
  lemma {:induction false} FilterKeyCard<T(!new), K>(s: seq<T>, p: T -> bool, key: T -> K)
    requires forall i, j :: 0 <= i < j < |s| && p(s[i]) && p(s[j]) ==> key(s[i]) != key(s[j])
    ensures |KeySet(Filter(s, p), key)| == |Filter(s, p)|
  {
    if |s| == 0 {
      assert KeySet(Filter(s, p), key) == {};
    } else {
      var tail := s[1..];
      forall i, j | 0 <= i < j < |tail| && p(tail[i]) && p(tail[j])
        ensures key(tail[i]) != key(tail[j])
      {
        assert tail[i] == s[i + 1] && tail[j] == s[j + 1];
      }
      FilterKeyCard(tail, p, key);
      var rest := Filter(tail, p);
      if p(s[0]) {
        assert Filter(s, p) == [s[0]] + rest;
        assert key(s[0]) !in KeySet(rest, key) by {
          forall x | x in rest
            ensures key(x) != key(s[0])
          {
            assert x in tail && p(x);
            var k :| 0 <= k < |tail| && tail[k] == x;
            assert s[k + 1] == x;
          }
        }
        assert KeySet(Filter(s, p), key) == {key(s[0])} + KeySet(rest, key);
      } else {
        assert Filter(s, p) == rest;
      }
    }
  }

  /** A row that precedes `x` and every row of `s` precedes every row of a shuffle of them. */
  lemma BoundShuffle<T>(r: seq<T>, s: seq<T>, x: T, lo: T, le: (T, T) -> bool)
    requires multiset(r) == multiset(s) + multiset{x}
    requires le(lo, x)
    requires forall k :: 0 <= k < |s| ==> le(lo, s[k])
    ensures forall y :: y in r ==> le(lo, y)
  {
    forall y | y in r ensures le(lo, y) {
      assert y in multiset(r);
      if y != x {
        assert y in multiset(s);
        var k :| 0 <= k < |s| && s[k] == y;
      }
    }
  }

  /** A row preceding every row of a sorted sequence can head it. */
  lemma ConsSorted<T>(h: T, t: seq<T>, le: (T, T) -> bool)
    requires SortedBy(t, le)
    requires forall y :: y in t ==> le(h, y)
    ensures SortedBy([h] + t, le)
  {
    var r := [h] + t;
    forall i, j | 0 <= i < j < |r| ensures le(r[i], r[j]) {
      assert r[j] == t[j - 1] && t[j - 1] in t;
      if i > 0 {
        assert r[i] == t[i - 1];
      }
    }
  }

  /** Inserts `x` into the sorted `s` after every row that must precede it. */
  function Insert<T(!new)>(x: T, s: seq<T>, le: (T, T) -> bool): (r: seq<T>)
    requires TotalPreorder(le)
    requires SortedBy(s, le)
    ensures SortedBy(r, le)
    ensures multiset(r) == multiset(s) + multiset{x}
  {
    if |s| == 0 then [x]
    else if le(x, s[0]) then
      assert forall y :: y in s ==> le(x, y) by {
        forall y | y in s ensures le(x, y) {
          var k :| 0 <= k < |s| && s[k] == y;
          if k > 0 { assert le(s[0], s[k]); }
        }
      }
      ConsSorted(x, s, le);
      [x] + s
    else
      var t := s[1..];
      var rest := Insert(x, t, le);
      assert le(s[0], x);
      assert forall k :: 0 <= k < |t| ==> le(s[0], t[k]) by {
        forall k | 0 <= k < |t| ensures le(s[0], t[k]) {
          assert t[k] == s[k + 1];
        }
      }
      BoundShuffle(rest, t, x, s[0], le);
      ConsSorted(s[0], rest, le);
      assert s == [s[0]] + t;
      [s[0]] + rest
  }

  /** A permutation of `s` that is sorted by `le` (insertion sort). */
  function SortBy<T(!new)>(s: seq<T>, le: (T, T) -> bool): (r: seq<T>)
    requires TotalPreorder(le)
    ensures SortedBy(r, le)
    ensures multiset(r) == multiset(s)
    ensures |r| == |s|
  {
    if |s| == 0 then []
    else
      assert s == [s[0]] + s[1..];
      Insert(s[0], SortBy(s[1..], le), le)
  }

  /** Sorting keeps exactly the rows it was given. */
  lemma SortByMembers<T(!new)>(s: seq<T>, le: (T, T) -> bool)
    requires TotalPreorder(le)
    ensures forall x :: x in SortBy(s, le) <==> x in s
  {
    var r := SortBy(s, le);
    forall x ensures x in r <==> x in s {
      assert x in r <==> x in multiset(r);
      assert x in s <==> x in multiset(s);
    }
  }

  /** Ordering rows by an integer column, ascending, is a total preorder. */
  lemma IntAscending<T(!new)>(le: (T, T) -> bool, key: T -> int)
    requires forall x, y :: le(x, y) == (key(x) <= key(y))
    ensures TotalPreorder(le)
  {
  }

  /** Ordering rows by an integer column, descending, is a total preorder. */
  lemma IntDescending<T(!new)>(le: (T, T) -> bool, key: T -> int)
    requires forall x, y :: le(x, y) == (key(x) >= key(y))
    ensures TotalPreorder(le)
  {
  }

  lemma {:induction false} KeySetBound<T, K>(s: seq<T>, key: T -> K)
    ensures |KeySet(s, key)| <= |s|
  {
    if |s| > 0 {
      KeySetBound(s[1..], key);
      assert KeySet(s, key) == {key(s[0])} + KeySet(s[1..], key) by {
        forall x | x in s ensures x == s[0] || x in s[1..] {
          var i :| 0 <= i < |s| && s[i] == x;
          if i > 0 { assert s[1..][i - 1] == x; }
        }
        assert forall x :: x in s[1..] ==> x in s;
      }
    }
  }

  /** Rows have pairwise distinct keys exactly when there are as many keys as rows. */
  lemma {:induction false} UniqueKeysCard<T, K>(s: seq<T>, key: T -> K)
    ensures UniqueKeys(s, key) <==> |KeySet(s, key)| == |s|
  {
    if |s| == 0 {
      assert KeySet(s, key) == {};
    } else {
      var tail := s[1..];
      UniqueKeysCard(tail, key);
      KeySetBound(tail, key);
      assert KeySet(s, key) == {key(s[0])} + KeySet(tail, key) by {
        forall x | x in s ensures x == s[0] || x in tail {
          var i :| 0 <= i < |s| && s[i] == x;
          if i > 0 { assert tail[i - 1] == x; }
        }
        assert forall x :: x in tail ==> x in s;
      }
      if UniqueKeys(s, key) {
        assert UniqueKeys(tail, key) by {
          forall i, j | 0 <= i < j < |tail| ensures key(tail[i]) != key(tail[j]) {
            assert tail[i] == s[i + 1] && tail[j] == s[j + 1];
          }
        }
        assert key(s[0]) !in KeySet(tail, key) by {
          forall x | x in tail ensures key(x) != key(s[0]) {
            var k :| 0 <= k < |tail| && tail[k] == x;
            assert s[k + 1] == x;
          }
        }
      } else {
        var i, j :| 0 <= i < j < |s| && key(s[i]) == key(s[j]);
        if i == 0 {
          assert s[j] == tail[j - 1];
          assert key(s[0]) in KeySet(tail, key);
        } else {
          assert s[i] == tail[i - 1] && s[j] == tail[j - 1];
          assert !UniqueKeys(tail, key);
        }
      }
    }
  }

  /**
   * Projecting rows with unique keys through a key-preserving partial map, then
   * sorting, yields rows with unique keys.
   */
  lemma ListingUniqueKeys<A(!new), B(!new), K>(s: seq<A>, f: A -> Option<B>, akey: A -> K, bkey: B -> K, le: (B, B) -> bool)
    requires UniqueKeys(s, akey)
    requires forall a :: f(a).Some? ==> bkey(f(a).value) == akey(a)
    requires TotalPreorder(le)
    ensures UniqueKeys(SortBy(FilterMap(s, f), le), bkey)
  {
    var m := FilterMap(s, f);
    FilterMapUniqueKeys(s, f, akey, bkey);
    var r := SortBy(m, le);
    assert KeySet(r, bkey) == KeySet(m, bkey) by {
      forall x ensures x in r <==> x in m {
        assert x in r <==> x in multiset(r);
        assert x in m <==> x in multiset(m);
      }
    }
    UniqueKeysCard(m, bkey);
    UniqueKeysCard(r, bkey);
  }

  lemma {:induction false} FilterMapUniqueKeys<A(!new), B(!new), K>(s: seq<A>, f: A -> Option<B>, akey: A -> K, bkey: B -> K)
    requires UniqueKeys(s, akey)
    requires forall a :: f(a).Some? ==> bkey(f(a).value) == akey(a)
    ensures UniqueKeys(FilterMap(s, f), bkey)
  {
    if |s| > 0 {
      var tail := s[1..];
      assert UniqueKeys(tail, akey) by {
        forall i, j | 0 <= i < j < |tail| ensures akey(tail[i]) != akey(tail[j]) {
          assert tail[i] == s[i + 1] && tail[j] == s[j + 1];
        }
      }
      FilterMapUniqueKeys(tail, f, akey, bkey);
      var rest := FilterMap(tail, f);
      if f(s[0]).Some? {
        var head := f(s[0]).value;
        assert FilterMap(s, f) == [head] + rest;
        forall y | y in rest ensures bkey(y) != bkey(head) {
          var a :| a in tail && f(a) == Some(y);
          var k :| 0 <= k < |tail| && tail[k] == a;
          assert s[k + 1] == a;
        }
        forall i, j | 0 <= i < j < |[head] + rest|
          ensures bkey(([head] + rest)[i]) != bkey(([head] + rest)[j])
        {
          if i == 0 {
            assert ([head] + rest)[j] == rest[j - 1];
            assert rest[j - 1] in rest;
          } else {
            assert ([head] + rest)[i] == rest[i - 1] && ([head] + rest)[j] == rest[j - 1];
          }
        }
      } else {
        assert FilterMap(s, f) == rest;
      }
    }
  }

  /** A listing (project, then sort) holds exactly the images of the source rows. */
  lemma ListingMembers<A(!new), B(!new)>(s: seq<A>, f: A -> Option<B>, le: (B, B) -> bool)
    requires TotalPreorder(le)
    ensures forall b :: b in SortBy(FilterMap(s, f), le) <==> exists a :: a in s && f(a) == Some(b)
  {
    SortByMembers(FilterMap(s, f), le);
  }

  /** A property every kept image has holds of every row of the listing. */
  lemma ListingAll<A(!new), B(!new)>(s: seq<A>, f: A -> Option<B>, le: (B, B) -> bool, p: B -> bool)
    requires TotalPreorder(le)
    requires forall a :: f(a).Some? ==> p(f(a).value)
    ensures forall b :: b in SortBy(FilterMap(s, f), le) ==> p(b)
  {
    ListingMembers(s, f, le);
  }

  /** The keys of a listing are the keys of the source rows the projection keeps. */
  lemma ListingKeys<A(!new), B(!new), K>(s: seq<A>, f: A -> Option<B>, le: (B, B) -> bool, key: B -> K)
    requires TotalPreorder(le)
    ensures forall k :: k in KeySet(SortBy(FilterMap(s, f), le), key) <==>
      exists a :: a in s && f(a).Some? && key(f(a).value) == k
  {
    ListingMembers(s, f, le);
    var r := SortBy(FilterMap(s, f), le);
    forall k
      ensures k in KeySet(r, key) ==> exists a :: a in s && f(a).Some? && key(f(a).value) == k
    {
      if k in KeySet(r, key) {
        var b :| b in r && key(b) == k;
        var a :| a in s && f(a) == Some(b);
        assert f(a).Some? && key(f(a).value) == k;
      }
    }
    forall k
      ensures (exists a :: a in s && f(a).Some? && key(f(a).value) == k) ==> k in KeySet(r, key)
    {
      if exists a :: a in s && f(a).Some? && key(f(a).value) == k {
        var a :| a in s && f(a).Some? && key(f(a).value) == k;
        assert f(a).value in r;
      }
    }
  }
}

=== FILE: text.dfy ===
/**
 * Text as the database sees it: case folding, the ILIKE pattern match used by
 * every search box (`col ILIKE '%' || q || '%'`), the decimal text of an
 * integer column cast with `::text`, and the ordering of `ORDER BY nome`.
 */
module Text {
  import Seqs

  /** Lower-case folding of one character: ASCII and Latin-1 capitals. */
  function LowerChar(c: char): char
  {
    if 'A' <= c <= 'Z' then (c as int + 32) as char
    else if 'À' <= c <= 'Þ' && c != '×' then (c as int + 32) as char
    else c
  }

  function Lower(s: string): string
  {
    seq(|s|, i requires 0 <= i < |s| => LowerChar(s[i]))
  }

  /** `%`, `_` and the escape character `\` are the LIKE metacharacters. */
  predicate IsMeta(c: char)
  {
    c == '%' || c == '_' || c == '\\'
  }

  predicate NoMeta(s: string)
  {
    forall i :: 0 <= i < |s| ==> !IsMeta(s[i])
  }

  /** `q` occurs in `t` starting at position `k`. */
  predicate OccursAt(q: string, t: string, k: int)
  {
    0 <= k <= |t| - |q| && t[k..k + |q|] == q
  }

  /** `q` occurs in `t` as a contiguous piece. */
  predicate IsSubstring(q: string, t: string)
  {
    exists k :: 0 <= k <= |t| && OccursAt(q, t, k)
  }

  /**
   * SQL LIKE: `%` matches any run of characters, `_` any single character,
   * `\` makes the next pattern character literal, every other character
   * matches itself.
   */
  predicate Like(p: string, t: string)
    decreases |p| + |t|
  {
    if |p| == 0 then |t| == 0
    else if p[0] == '%' then Like(p[1..], t) || (|t| > 0 && Like(p, t[1..]))
    else if p[0] == '_' then |t| > 0 && Like(p[1..], t[1..])
    else if p[0] == '\\' && |p| >= 2 then |t| > 0 && t[0] == p[1] && Like(p[2..], t[1..])
    else |t| > 0 && t[0] == p[0] && Like(p[1..], t[1..])
  }

  /** `t ILIKE '%q%'`, the search predicate bound by every search box. */
  predicate Contains(t: string, q: string)
  {
    Like(Lower("%" + q + "%"), Lower(t))
  }

  lemma {:induction false} LikeAnything(t: string)
    ensures Like("%", t)
    decreases |t|
  {
    if |t| > 0 {
      LikeAnything(t[1..]);
    }
  }

  /** A metacharacter-free prefix of the pattern matches itself literally. */
  lemma {:induction false} LikeLiteralPrefix(u: string, r: string, t: string)
    requires NoMeta(u)
    ensures Like(u + r, t) <==> |u| <= |t| && t[..|u|] == u && Like(r, t[|u|..])
    decreases |u|
  {
    if |u| == 0 {
      assert u + r == r;
      assert t[..0] == u && t[0..] == t;
    } else {
      var p := u + r;
      assert p[0] == u[0] && !IsMeta(u[0]);
      assert p[1..] == u[1..] + r;
      if |t| > 0 {
        LikeLiteralPrefix(u[1..], r, t[1..]);
        if |u| <= |t| {
          assert t[1..][|u| - 1..] == t[|u|..];
          assert t[..|u|] == [t[0]] + t[1..][..|u| - 1];
          assert u == [u[0]] + u[1..];
        }
      }
    }
  }

  /** A leading `%` lets the rest of the pattern match any suffix. */
  lemma {:induction false} LikeLeadingPercent(p: string, t: string)
    ensures Like("%" + p, t) <==> exists k :: 0 <= k <= |t| && Like(p, t[k..])
    decreases |t|
  {
    var pp := "%" + p;
    assert pp[0] == '%' && pp[1..] == p;
    assert t[0..] == t;
    if |t| > 0 {
      LikeLeadingPercent(p, t[1..]);
      if exists k :: 0 <= k <= |t| && Like(p, t[k..]) {
        var k :| 0 <= k <= |t| && Like(p, t[k..]);
        if k > 0 {
          assert t[1..][k - 1..] == t[k..];
        }
      }
      if exists k :: 0 <= k <= |t[1..]| && Like(p, t[1..][k..]) {
        var k :| 0 <= k <= |t[1..]| && Like(p, t[1..][k..]);
        assert t[1..][k..] == t[k + 1..];
      }
    }
  }

  lemma LowerKeepsNoMeta(q: string)
    requires NoMeta(q)
    ensures NoMeta(Lower(q))
  {
  }

  lemma LowerConcat(a: string, b: string)
    ensures Lower(a + b) == Lower(a) + Lower(b)
  {
  }

  lemma PercentPattern(q: string)
    ensures Lower("%" + q + "%") == "%" + (Lower(q) + "%")
  {
    LowerConcat("%" + q, "%");
    LowerConcat("%", q);
    assert Lower("%") == "%";
  }

  lemma LikeToSubstring(u: string, s: string)
    requires NoMeta(u)
    requires Like("%" + (u + "%"), s)
    ensures IsSubstring(u, s)
  {
    LikeLeadingPercent(u + "%", s);
    var k :| 0 <= k <= |s| && Like(u + "%", s[k..]);
    LikeLiteralPrefix(u, "%", s[k..]);
    assert s[k..][..|u|] == s[k..k + |u|];
    assert OccursAt(u, s, k);
  }

  lemma SubstringToLike(u: string, s: string)
    requires NoMeta(u)
    requires IsSubstring(u, s)
    ensures Like("%" + (u + "%"), s)
  {
    var k :| 0 <= k <= |s| && OccursAt(u, s, k);
    assert k + |u| <= |s| && s[k..k + |u|] == u;
    assert s[k..][..|u|] == s[k..k + |u|];
    LikeAnything(s[k..][|u|..]);
    LikeLiteralPrefix(u, "%", s[k..]);
    LikeLeadingPercent(u + "%", s);
  }

  /**
   * For a search text without LIKE metacharacters, `t ILIKE '%q%'` holds
   * exactly when the case-folded `q` occurs in the case-folded `t`.
   */
  lemma ContainsIsSubstring(t: string, q: string)
    requires NoMeta(q)
    ensures Contains(t, q) <==> IsSubstring(Lower(q), Lower(t))
  {
    PercentPattern(q);
    LowerKeepsNoMeta(q);
    if Contains(t, q) {
      LikeToSubstring(Lower(q), Lower(t));
    }
    if IsSubstring(Lower(q), Lower(t)) {
      SubstringToLike(Lower(q), Lower(t));
    }
  }

  /** An `_` in the search text matches any character (no escaping is applied). */
  lemma UnderscoreMatchesAnyLetter()
    ensures Contains("Dune", "_")
    ensures !IsSubstring(Lower("_"), Lower("Dune"))
  {
    var s := Lower("Dune");
    assert Lower("%" + "_" + "%") == "%_%";
    assert Like("%", s[1..]) by { LikeAnything(s[1..]); }
    assert Like("_%", s);
    assert Like("%_%", s);
    assert Lower("_") == "_" && s == "dune";
    forall k | 0 <= k <= |s|
      ensures !OccursAt("_", s, k)
    {
      if k + 1 <= |s| {
        assert s[k..k + 1][0] == s[k];
      }
    }
  }

  /** The character of a decimal digit. */
  function DigitChar(k: nat): (c: char)
    requires k < 10
    ensures '0' <= c <= '9' && DigitValue(c) == k
  {
    (('0' as int) + k) as char
  }

  /** The value of a decimal digit character. */
  function DigitValue(c: char): int
  {
    c as int - '0' as int
  }

  /** Reads a string of decimal digits back as a number, most significant first. */
  function DigitsValue(s: string): int
  {
    if |s| == 0 then 0 else 10 * DigitsValue(s[..|s| - 1]) + DigitValue(s[|s| - 1])
  }

  /** Decimal text of a non-negative integer. */
  function Digits(n: nat): (r: string)
    ensures |r| >= 1
    ensures forall i :: 0 <= i < |r| ==> '0' <= r[i] <= '9'
  {
    var d := DigitChar(n % 10);
    if n < 10 then [d] else Digits(n / 10) + [d]
  }

  /** The decimal text reads back as the number, with no leading zero except for 0 itself. */
  lemma {:induction false} DigitsRoundTrip(n: nat)
    ensures DigitsValue(Digits(n)) == n
    ensures Digits(n)[0] == '0' <==> n == 0
  {
    var r := Digits(n);
    if n >= 10 {
      DigitsRoundTrip(n / 10);
      assert r[..|r| - 1] == Digits(n / 10);
      assert r[0] == Digits(n / 10)[0];
    }
  }

  /** `n::text`: decimal text with a leading `-` for negative values. */
  function IntText(n: int): string
  {
    if n < 0 then "-" + Digits(-n) else Digits(n)
  }

  /** Reads the text of an integer back: an optional `-` and decimal digits. */
  function IntTextValue(s: string): int
  {
    if |s| > 0 && s[0] == '-' then -DigitsValue(s[1..]) else DigitsValue(s)
  }

  /** `n::text` reads back as `n`. */
  lemma IntTextRoundTrip(n: int)
    ensures IntTextValue(IntText(n)) == n
  {
    if n < 0 {
      var d := Digits(-n);
      DigitsRoundTrip(-n);
      assert ("-" + d)[1..] == d;
    } else {
      DigitsRoundTrip(n);
      assert Digits(n)[0] != '-';
    }
  }

  /** Distinct asset numbers have distinct texts. */
  lemma IntTextInjective(m: int, n: int)
    requires IntText(m) == IntText(n)
    ensures m == n
  {
    IntTextRoundTrip(m);
    IntTextRoundTrip(n);
  }

  /**
   * String order of `ORDER BY nome`: lexicographic by code point, a prefix
   * before any longer string.
   */
  predicate StrLe(a: string, b: string)
    decreases |a|
  {
    |a| == 0 || (|b| > 0 && (a[0] < b[0] || (a[0] == b[0] && StrLe(a[1..], b[1..]))))
  }

  lemma {:induction false} StrLeTotal(a: string, b: string)
    ensures StrLe(a, b) || StrLe(b, a)
    decreases |a|
  {
    if |a| > 0 && |b| > 0 && a[0] == b[0] {
      StrLeTotal(a[1..], b[1..]);
    }
  }

  lemma {:induction false} StrLeTransitive(a: string, b: string, c: string)
    requires StrLe(a, b) && StrLe(b, c)
    ensures StrLe(a, c)
    decreases |a|
  {
    if |a| > 0 && a[0] == b[0] && b[0] == c[0] {
      StrLeTransitive(a[1..], b[1..], c[1..]);
    }
  }

  lemma {:induction false} StrLeAntisymmetric(a: string, b: string)
    requires StrLe(a, b) && StrLe(b, a)
    ensures a == b
    decreases |a|
  {
    if |a| > 0 {
      StrLeAntisymmetric(a[1..], b[1..]);
      assert a == [a[0]] + a[1..] && b == [b[0]] + b[1..];
    }
  }

  /** Ordering rows by a string column is a total preorder. */
  lemma StrKeyPreorder<T(!new)>(le: (T, T) -> bool, key: T -> string)
    requires forall x, y :: le(x, y) == StrLe(key(x), key(y))
    ensures Seqs.TotalPreorder(le)
  {
    forall x: T, y: T ensures StrLe(key(x), key(y)) || StrLe(key(y), key(x)) {
      StrLeTotal(key(x), key(y));
    }
    forall x: T, y: T, z: T | StrLe(key(x), key(y)) && StrLe(key(y), key(z))
      ensures StrLe(key(x), key(z))
    {
      StrLeTransitive(key(x), key(y), key(z));
    }
  }

  /** Order by the first string column, then by the second. */
  predicate PairLe(a1: string, a2: string, b1: string, b2: string)
  {
    (a1 != b1 && StrLe(a1, b1)) || (a1 == b1 && StrLe(a2, b2))
  }

  /** Ordering rows by two string columns is a total preorder. */
  lemma PairKeyPreorder<T(!new)>(le: (T, T) -> bool, k1: T -> string, k2: T -> string)
    requires forall x, y :: le(x, y) == PairLe(k1(x), k2(x), k1(y), k2(y))
    ensures Seqs.TotalPreorder(le)
  {
    forall x: T, y: T ensures PairLe(k1(x), k2(x), k1(y), k2(y)) || PairLe(k1(y), k2(y), k1(x), k2(x)) {
      StrLeTotal(k1(x), k1(y));
      StrLeTotal(k2(x), k2(y));
    }
    forall x: T, y: T, z: T | PairLe(k1(x), k2(x), k1(y), k2(y)) && PairLe(k1(y), k2(y), k1(z), k2(z))
      ensures PairLe(k1(x), k2(x), k1(z), k2(z))
    {
      if k1(x) == k1(y) && k1(y) == k1(z) {
        StrLeTransitive(k2(x), k2(y), k2(z));
      } else {
        StrLeTotal(k1(x), k1(x));
        StrLeTotal(k1(y), k1(y));
        StrLeTransitive(k1(x), k1(y), k1(z));
        if k1(x) == k1(z) {
          StrLeAntisymmetric(k1(x), k1(y));
        }
      }
    }
  }
}
